=== FILE: README.md ===
# Zombie shooter gameplay bookkeeping, in Dafny

This project models the integer and boolean bookkeeping of a small Unity
third-person zombie shooter. It covers four cooperating state machines:

- **Player** (`Assets/Player.cs`):
  - health and ammo are bounded counters;
  - the one-way death edge: aiming off, input zeroed, death camera recorded, UI notified;
  - health and ammo pickups report success or refusal;
  - the fire gate and its one-bullet cost;
  - the jump request flag;
  - the grounded/airborne velocity rule;
  - the camera pitch clamp;
  - the frozen death camera.
- **Zombie** (`Assets/Zombie.cs`):
  - health is set at Awake;
  - the death edge disables the agent, rolls for a health drop, reports to the match and schedules removal;
  - attacks are gated by distance and a cooldown.
- **Game manager** (`Assets/GameManager.cs`):
  - the spawn-point registry;
  - the enemy and pickup countdowns;
  - the enemy cap, which counts zombie objects;
  - the finite enemy budget and the live-enemy count;
  - the win check and the once-only GameWon notification;
  - the restart gate.
- **Pickup** (`Assets/Pickup.cs`):
  - dispatches on type to AddHealth or AddAmmo;
  - is destroyed only when the add succeeds;
  - frees its spawn point on every player contact.

Every state is an immutable datatype, and every engine entry point is a pure
function. Anything the engine decides is an explicit parameter:
- frame time;
- the raycast outcome;
- random indices and draws;
- the player–zombie distance;
- the ground contact;
- the camera follow position;
- the velocity the physics step leaves behind.

The module `Scene` puts one loaded scene together: the player, the manager,
and maps of zombie and pickup objects. It drives them with one `Event` per
engine callback. The cross-object calls happen inside the event that makes
them, as in the source:
- a shot damaging a zombie;
- a zombie's death reaching the manager;
- an attack hitting the player;
- a pickup freeing its point.

The UI calls (PlayerDied, GameWon) and the two error logs become entries in a
list of notices.

`SceneInvariant` proves that every event preserves one scene invariant. The
invariant says:
- the player's counters are in range;
- every zombie's flags agree with its health;
- remaining budget plus zombies ever spawned equals the configured total;
- the live-enemy count equals the number of live zombie objects;
- zombie objects never exceed the cap;
- occupied points host a pickup.

On top of that it proves that, between reloads, the GameWon and PlayerDied
notifications are each shown at most once.

The model keeps these behaviours of the code as written:
- When the enemy cap refuses a spawn, the enemy countdown is not reset.
- The cap compares the number of zombie objects, lingering dead ones included, and not the live-enemy counter. `SceneInvariant.CapCountsLingeringZombies` shows the two differ exactly when a dead zombie lingers.
- Any player contact frees a pickup's point, even when nothing is taken. A second pickup can then be placed at a point that still hosts one.
- Firing and jumping read the aiming state of the previous frame, because aiming is refreshed last.
- The manager's enemy cap has no initialiser, so it defaults to 0. With that default no enemy ever spawns (`GameManager.DefaultCapNeverSpawns`).
- The win is checked only when an enemy dies. With a total enemy count of 0 the match is therefore never won (`SceneInvariant.NoEnemiesNeverWon`).
- The win test is both counters at or below zero, not equal to zero (`Assets/GameManager.cs:149`).
- A zombie attacks only once its cooldown is strictly below zero; a cooldown of exactly zero does not attack (`Assets/Zombie.cs:55`).
- A zombie is steered towards the player whenever its navigation agent is enabled, not by testing its health (`Assets/Zombie.cs:48`). For a consistent zombie the two agree.
- Pitch is clamped to [−maxPitch, −minPitch], the negated configured range (`Assets/Player.cs:157`).

Files:
- `common.dfy`: Option, Vec3, and the engine math helpers the code relies on (Mathf.Min/Max/Clamp/Lerp, the float epsilon).
- `player.dfy`, `zombie.dfy`, `game_manager.dfy`, `pickup.dfy`: one module per script.
- `scene.dfy`: the scene and its events.
- `scene_invariant.dfy`: the scene-level proofs.

## Model

| member | source | states |
|---|---|---|
| Common.Clamp | Assets/Player.cs:157 | The result lies in [lo, hi] when lo ≤ hi, and is the input when the input is already in range. The lower bound is compared first, so a value below it yields lo, even for an inverted range. For a proper range a value above hi yields hi. |
| Common.Lerp | Assets/Player.cs:196-197 | The parameter is clamped to [0, 1]: at or below 0 the result is the start, at or above 1 the end, and it always lies between the two. |
| Players.Start | Assets/Player.cs:78-82 | The player starts with full health and full ammo, not aiming, no jump pending, and the camera rig attached at its slot. Health and ammo start within bounds. |
| Players.IsAlive | Assets/Player.cs:288-291 | A player is alive iff its health is strictly positive, so a player at exactly zero health is dead. Every death edge, shot and add refusal of the player is decided by this test. |
| Players.Hit | Assets/Player.cs:294-327 | A dead player is unaffected. Otherwise health becomes max(health − damage, 0). The death edge fires iff the player was alive and the damage reaches the health. The death edge forces aiming off, zeroes both input vectors, records the rig position as the death camera position, detaches the rig and releases the body, and changes nothing else. A non-fatal hit changes only health, which never goes negative. |
| Players.DeadPlayerNeverDiesAgain | Assets/Player.cs:296-297 | A dead player produces no death edge under any sequence of hits. |
| Players.DeathEdgeAtMostOnce | Assets/Player.cs:296-326 | Over any sequence of hits the death edge, and with it the PlayerDied notification, fires at most once, and never for a player who is already dead. |
| Players.AddHealth | Assets/Player.cs:332-345 | It succeeds iff the player is alive and health is below max. A refusal leaves the player unchanged. A success sets health to min(health + count, max) and changes nothing else. |
| Players.AddAmmo | Assets/Player.cs:349-362 | It succeeds iff the player is alive and ammo is below max. A refusal leaves the player unchanged. A success sets ammo to min(ammo + count, max) and changes nothing else. |
| Players.ShotEffectOf | Assets/Player.cs:255-267 | A live zombie takes exactly the gun damage and no impulse. A dead zombie or another rigidbody gets exactly the gun force and no damage. A miss or a plain surface gets neither. |
| Players.UpdateInput | Assets/Player.cs:109-157 | A shot happens iff the player is alive, was already aiming, pressed fire this frame and has ammo. Each shot costs exactly one bullet, so ammo stays within [0, previous]. The jump request is set only for a live, grounded, non-aiming player who pressed jump. Aiming is refreshed only while alive. A dead player changes only yaw and pitch. Whenever minPitch ≤ maxPitch, pitch ends in [−maxPitch, −minPitch], alive or dead. |
| Players.SteerVelocity | Assets/Player.cs:187-198 | The vertical component never changes. On the ground the horizontal velocity becomes the target's. In the air without steering the velocity is unchanged. With steering, each of x and z moves from the current value toward the target's and stays between the two: it reaches the target with air control ≥ 1 and stays put with air control ≤ 0. |
| Players.UpdateMovement | Assets/Player.cs:174-209 | A dead player is unchanged. The smoothed input moves toward the raw input and stays between the old smoothed value and the raw input on x and z. It reaches the raw input when acceleration × dt ≥ 1 and stays put when it is ≤ 0. A grounded player's horizontal velocity equals the input velocity of that smoothed input. An airborne player with no input or no air control keeps its horizontal velocity. The vertical velocity changes only by the jump speed when a jump is pending. Consuming the jump clears both the request and the grounded flag. |
| Players.Land | Assets/Player.cs:282-285 | Any ground-trigger contact leaves the player grounded, so the next movement step may consume a pending jump, and nothing else about the player changes. |
| Players.FullAirControlTracksGround | Assets/Player.cs:187-197 | With air control of at least 1, a moving airborne player gets the same horizontal velocity as on the ground. |
| Players.UpdateCamera | Assets/Player.cs:225-229 | The camera rig follows its target while the player is alive and sits at the recorded death position once dead. Nothing else changes. |
| Players.DeathCameraFrozen | Assets/Player.cs:226-229 | After the fatal hit, the rig stays where it stood at that hit for any number of camera frames. |
| Players.FrozenStaysFrozen | Assets/Player.cs:228-229 | A dead player whose rig is at the death position is a fixed point of every run of camera frames. |
| Zombies.Awake | Assets/Zombie.cs:26-39 | A zombie starts at full health with no cooldown pending. With positive max health it is alive and its flags are consistent: agent on, body kinematic, no removal pending. |
| Zombies.IsAlive | Assets/Zombie.cs:67-70 | A zombie is alive iff its health is strictly positive. This test decides the death edge, the attack and whether a shot damages the zombie or pushes its body. |
| Zombies.Hit | Assets/Zombie.cs:73-106 | A dead zombie is unaffected. Otherwise health becomes max(health − damage, 0). The death edge fires iff the zombie was alive and the damage reaches the health. The loot drops iff the zombie died and the draw is at most the spawn odds. Dying disables the agent, frees the body and schedules removal. Consistency is preserved. |
| Zombies.DeadZombieIgnoresStrikes | Assets/Zombie.cs:75-76 | A dead zombie yields no death edge and no loot under any sequence of hits. |
| Zombies.DeathEdgeAtMostOnce | Assets/Zombie.cs:82-105 | Over any sequence of hits the death edge fires at most once, so the EnemyDied report, the loot roll and the removal happen at most once. There are never more drops than deaths. |
| Zombies.Update | Assets/Zombie.cs:42-64 | The cooldown runs down by the frame time in every state and is reset to the attack interval exactly when an attack happens. The agent is steered iff it is enabled. An attack happens iff the zombie is alive, strictly inside the attack distance and its cooldown is strictly below zero. A consistent dead zombie neither chases nor attacks. |
| Pickups.LootDrop | Assets/Zombie.cs:94-99 | The pickup a dying zombie leaves is a health pickup of the configured amount. No contact with it, by anyone, with any player state, ever frees a spawn point, so it never changes the manager's occupancy (`Assets/Pickup.cs:43-44`). Touching it changes at most the player's health. |
| Pickups.OnTriggerEnter | Assets/Pickup.cs:22-50 | A non-player contact changes nothing. A player contact releases exactly the owner point, if any. The pickup is destroyed iff the matching add succeeded. Only the counter matching the pickup's type changes, and the player's bounds are preserved. |
| GameManager.SpawnsOfType | Assets/GameManager.cs:48-60 | The list holds exactly the indices of the children whose spawn point has the given type, in child order, without repeats. |
| GameManager.Start | Assets/GameManager.cs:30-61 | The budget is the configured total, nothing is spawned or won, and both countdowns are at zero. Every spawn-point child lands in the list of its own type. No point is occupied. |
| GameManager.StartPartitionsChildren | Assets/GameManager.cs:52-58 | No child is registered as both kinds of point. A child without a spawn point is in neither list. |
| GameManager.SpawnEnemy | Assets/GameManager.cs:85-107 | At or above the cap on zombie objects nothing changes, the countdown included. With no enemy points only the countdown is reset, and an error is reported. Otherwise the chosen point is used, the budget drops by one, the live count rises by one and the countdown is reset. The budget plus the live count is conserved in every case. |
| GameManager.DefaultCapNeverSpawns | Assets/GameManager.cs:85-88 | The enemy cap field has no initialiser, so with the declared defaults the cap is zero, so every spawn attempt is refused at the cap, whatever the object count, and the manager is left as it was. |
| GameManager.SpawnPickup | Assets/GameManager.cs:110-131 | The countdown is reset in every case. There is an error iff no pickup points exist. An occupied point gets nothing. A free point becomes occupied and is the new pickup's owner. |
| GameManager.Release | Assets/Pickup.cs:43-44 | The released point becomes free, and every other point's flag is unchanged. |
| GameManager.Update | Assets/GameManager.cs:64-82 | An enemy spawn is attempted iff the enemy countdown goes below zero while budget remains, so the budget never goes negative. A pickup spawn is attempted iff the pickup countdown goes below zero. A restart happens iff R was pressed while the player is dead or the match is won. The remaining budget plus the live count is conserved. The win flag and the registry are untouched. |
| GameManager.TryEnemy | Assets/GameManager.cs:71-72 | On the advanced countdown, a spawn is attempted iff the countdown is below zero and budget remains. A cap refusal leaves the countdown as it was, while any other attempt resets it. The budget drops only for an actual spawn, at one of the registered enemy points. The pickup side is untouched. |
| GameManager.TryPickup | Assets/GameManager.cs:73-74 | A pickup spawn is attempted iff the pickup countdown is below zero, and an attempt resets the countdown. A point is marked occupied only when it was free and registered. The enemy side is untouched. |
| GameManager.IsGameWon | Assets/GameManager.cs:147-150 | The match counts as won iff both the enemy budget and the live count are at or below zero, not only equal to zero. |
| GameManager.EnemyDied | Assets/GameManager.cs:134-150 | The live count drops by exactly one. GameWon fires iff the match was not yet won, the budget is spent and this was the last live enemy. The win flag is never cleared, and is set only when the match is won. |
| GameManager.ThreeEnemyMatch | Assets/GameManager.cs:85-150 | In a fresh three-enemy match with a cap of at least three and an enemy point, three spawns in a row succeed and spend the budget. The win then fires on the third death and not before. |
| Scene.Load | Assets/GameManager.cs:77-81 | A freshly loaded scene has the full budget, no enemies, no pickups, no occupied point, nothing won, and a player with full health and ammo. |
| Scene.RayHitOf | Assets/Player.cs:255-262 | The shot counts as hitting a live zombie iff it was aimed at a zombie that is alive. |
| Scene.ManagerStep | Assets/GameManager.cs:64-82 | The scene reloads iff R was pressed while the player is dead or the match is won. Each "no spawn points" error appears iff the manager's update hit it. Without a reload the manager becomes exactly the manager's own update result, and a spawned enemy is a new zombie object in its Awake state. A spawned pickup is a new ammo pickup owned by its point. No other zombie or pickup is touched. The player and the win flag are untouched, and neither GameWon nor PlayerDied is shown. |
| Scene.SpawnErrors | Assets/GameManager.cs:100-127 | The enemy error appears iff the enemy spawn attempt found no enemy point, and the pickup error iff the pickup attempt found no pickup point. A frame logs nothing else. |
| Scene.Populate | Assets/GameManager.cs:90-122 | A spawned enemy adds one zombie object in its Awake state under a fresh id. A spawned pickup adds one ammo pickup owned by its point under a fresh id. The player, the manager and every existing object are kept. |
| Scene.ShootZombie | Assets/Zombie.cs:73-106 | The shot zombie becomes the result of its own Hit with that damage. Its death edge, and only that, reports EnemyDied to the manager. A loot drop adds exactly one ownerless health pickup. GameWon is shown iff that death report wins the match, alone and at most once. The win flag is never cleared, and the player is untouched. |
| Scene.PlayerStep | Assets/Player.cs:252-262 | The player becomes the result of its input frame. A damaging shot carries exactly the gun damage, was aimed at a zombie, and that zombie becomes the result of its Hit with the gun damage. Without a damaging shot nothing else in the scene changes and nothing is shown. A player frame keeps the player alive or dead as it was, never shows PlayerDied, and shows GameWon only when its shot sets the win flag. |
| Scene.DefaultConfig | Assets/Player.cs:9-42 | The configuration of every script at its declared field initialisers (these player fields, and likewise the zombie, manager and pickup fields) is sane: non-negative maxima, damages, restore amounts and budget, and zombies that start alive. So the scene invariant holds from its first load on. |
| Scene.ZombieStep | Assets/Zombie.cs:42-62 | The zombie becomes its updated self, and nothing else in the scene changes but the player. An attack hits the player for exactly the attack damage, through the player's Hit. A frame without an attack leaves the player untouched. PlayerDied is shown only by the attack that kills the player, alone. A dead player stays dead, and the manager is untouched. |
| Scene.PickupStep | Assets/Pickup.cs:22-50 | A non-player contact changes nothing. The player becomes exactly what the pickup's contact handler made of it. A player contact frees the owner point, whether or not the pickup is taken, and every other occupancy flag and all other manager state is kept. The pickup object disappears iff it was consumed. Every other pickup and every zombie is kept. A loot pickup leaves the manager untouched. |
| Scene.BodyStep | Assets/Player.cs:174-229 | A physics step, camera frame, landing or velocity update changes neither the player's health nor the manager, and shows no notice. |
| Scene.Step | Assets/GameManager.cs:77-81 | An event reloads the scene iff it is a manager frame with R pressed while the player is dead or the match is won. The reloaded scene is the freshly loaded one. Any other event never clears the win flag and never revives the player. In that case each of GameWon and PlayerDied appears at most once in its notices, and only on the step that makes its transition. |
| SceneInvariant.LoadEstablishesInv | Assets/GameManager.cs:44-45 | A freshly loaded scene satisfies the scene invariant, for any configuration with non-negative counters and zombies that start alive. |
| SceneInvariant.ManagerStepPreservesInv | Assets/GameManager.cs:64-131 | A manager frame, spawns and reload included, preserves the scene invariant. |
| SceneInvariant.SpawnsKeepBudget | Assets/GameManager.cs:87-98 | A spawned zombie is fresh and alive, so budget plus spawned zombies stays equal to the total, the live count stays equal to the number of live zombies, and zombie objects stay within the cap. |
| SceneInvariant.SpawnsKeepOccupancy | Assets/GameManager.cs:112-122 | A point is marked occupied only together with a new pickup owned by it, so every occupied point hosts a pickup. |
| SceneInvariant.ShootZombiePreservesInv | Assets/Zombie.cs:73-106 | A shot on a zombie, including its death report, its loot drop and a possible win, preserves the scene invariant. |
| SceneInvariant.PlayerStepPreservesInv | Assets/Player.cs:143-144 | A player frame, including the shot it may fire, preserves the invariant. In particular ammo stays within [0, max]. |
| SceneInvariant.ZombieStepPreservesInv | Assets/Zombie.cs:52-62 | A zombie frame, including an attack on the player, preserves the invariant. |
| SceneInvariant.PickupStepPreservesInv | Assets/Pickup.cs:22-50 | A pickup contact preserves the invariant, whether the pickup is taken or refused and whether it has an owner point or not. |
| SceneInvariant.PickupStepKeepsOccupancy | Assets/Pickup.cs:43-48 | After a pickup contact every occupied point still hosts a pickup. A point is occupied afterwards iff it was occupied before and is not the owner point of the touched pickup under a player contact. So only that point is ever freed. |
| SceneInvariant.StepPreservesInv | Assets/GameManager.cs:97-98 | Every event preserves the scene invariant. |
| SceneInvariant.CapCountsLingeringZombies | Assets/GameManager.cs:87 | The live-enemy count never exceeds the number of zombie objects the cap compares against. It is strictly smaller whenever a dead zombie lingers, and equal when every zombie object is alive. |
| SceneInvariant.Run | Assets/GameManager.cs:139-143 | Any sequence of events from an invariant scene ends in a scene that satisfies the invariant. Over any such sequence without a reload the win flag stays set and a dead player stays dead. GameWon is shown at most once, and not at all if the match was already won. PlayerDied is shown at most once, and not at all if the player was already dead. |
| SceneInvariant.NoEnemiesNoWin | Assets/GameManager.cs:134-143 | With an enemy total of zero no zombie exists, so no event can set the win flag. A reload leaves it clear as well. |
| SceneInvariant.NoEnemiesNeverWon | Assets/GameManager.cs:134-143 | A match whose enemy total is zero is never won, over any sequence of events. |

## Left out

- Floating point: engine floats are exact reals. Rounding, the float epsilon as a rounding threshold, and NaN/infinity are not modelled. The epsilon is kept as a constant in the air-control and "moving" tests.
- Vector and quaternion math:
  - camera-relative input, normalisation and the sprint factor arrive already applied in `InputSample.move`;
  - mesh turning, camera rotation smoothing, camera drag, the aim/freelook camera position and the field-of-view blend are not modelled;
  - arm pitch is not modelled;
  - `UpdateCamera` keeps only the rig placement, and the drag-smoothed follow target is a parameter.
- Physics and navigation:
  - the raycast becomes the `Aim` parameter;
  - death and shot impulses and velocity zeroing on death are not modelled; the body being released on death (`ragdoll`) and a dead zombie's body leaving kinematic mode (becoming a free rigidbody) are modelled as flags;
  - `SetDestination` is the `chases` flag and `Warp` the spawn-point index;
  - the distance to the player and the ground trigger are parameters or events;
  - the camera rig's parenting is not modelled: `cameraDetached` records that the rig was unparented at death, but nothing in the model carries the rig along with the body before then, so the flag is read by no operation;
  - the rigidbody's own integration between fixed steps is the `PhysicsVelocity` event.
- `Random.Range`: spawn indices and the loot draw are parameters, constrained only to the range the engine draws from: an index in [0, n) and a draw in [0, 1].
- Object lifecycle:
  - `Instantiate` adds an entry to a map with a fresh id;
  - the two-second delayed destruction of a dead zombie is the `ZombieRemoved` event, allowed once removal is scheduled;
  - the scene reload rebuilds the scene from its configuration;
  - the singleton handling in the manager's Start is not modelled;
  - a loaded scene holds no pre-placed zombie or pickup: every zombie comes from the manager's spawning, so each one was counted as a live enemy. A pre-placed zombie's death would be reported without a matching spawn and drive the live count below the live zombies;
  - every ammo pickup is owned by a pickup point, because only the manager places ammo pickups; a hand-placed ownerless ammo pickup is not modelled.
- UI and logging: the UI manager's display calls and the two error logs are notices. The per-frame health/ammo/crosshair refresh (`UpdateUI`), cursor locking and pickup spinning are not modelled. The UI manager script and the spawn-point gizmo script are not part of this model.
- Players.Hit: C# `int` arithmetic is modelled as unbounded; a 32-bit wrap-around at extreme inspector values is not modelled.
- Players.AddHealth: C# `int` arithmetic is modelled as unbounded; a 32-bit wrap-around at extreme inspector values is not modelled.
- Players.AddAmmo: C# `int` arithmetic is modelled as unbounded; a 32-bit wrap-around at extreme inspector values is not modelled.
- Zombies.Hit: C# `int` arithmetic is modelled as unbounded; a 32-bit wrap-around at extreme inspector values is not modelled.
- GameManager.SpawnEnemy: C# `int` arithmetic is modelled as unbounded; a 32-bit wrap-around at extreme inspector values is not modelled.
- GameManager.EnemyDied: C# `int` arithmetic is modelled as unbounded; a 32-bit wrap-around at extreme inspector values is not modelled.
- SceneInvariant.StepPreservesInv: the invariant assumes a sane configuration. This means non-negative player maxima, damages and restore amounts, a non-negative enemy total, and zombies with positive max health. A zombie with max health ≤ 0 would be born dead, be counted as a live enemy by the manager, and never report a death, so the live count would no longer match the live zombies.

=== FILE: common.dfy ===
/** Small value types and the scalar helpers of the game engine's math library
    (Mathf.Min, Mathf.Max, Mathf.Clamp, Mathf.Lerp, Vector3) that the gameplay
    bookkeeping relies on. Engine floats are modelled as exact reals. */
module Common {

  datatype Option<+T> = None | Some(value: T)

  datatype Vec3 = Vec3(x: real, y: real, z: real)

  const Zero: Vec3 := Vec3(0.0, 0.0, 0.0)

  /** Mathf.Epsilon, the smallest positive single-precision value (about 1.4e-45). */
  const FloatEpsilon: real := 1.401298 / 1000000000000000000000000000000000000000000000.0

  function Min(a: int, b: int): (r: int)
    ensures r <= a && r <= b
    ensures r == a || r == b
  {
    if a <= b then a else b
  }

  function Max(a: int, b: int): (r: int)
    ensures a <= r && b <= r
    ensures r == a || r == b
  {
    if a >= b then a else b
  }

  /** Mathf.Clamp: the lower bound is compared first, so an inverted range yields `lo`. */
  function Clamp(v: real, lo: real, hi: real): (r: real)
    ensures lo <= hi ==> lo <= r <= hi
    ensures lo <= v <= hi ==> r == v
    ensures v < lo ==> r == lo
    ensures lo <= hi && v > hi ==> r == hi
  {
    if v < lo then lo else if v > hi then hi else v
  }

  /** Mathf.Clamp01, used by both interpolation helpers. */
  function Clamp01(t: real): (r: real)
    ensures 0.0 <= r <= 1.0
    ensures 0.0 <= t <= 1.0 ==> r == t
  {
    Clamp(t, 0.0, 1.0)
  }

  /** Mathf.Lerp: the interpolation parameter is clamped to [0, 1]. */
  function Lerp(a: real, b: real, t: real): (r: real)
    ensures t <= 0.0 ==> r == a
    ensures t >= 1.0 ==> r == b
    ensures a <= b ==> a <= r <= b
    ensures b <= a ==> b <= r <= a
  {
    var c := Clamp01(t);
    if a <= b then
      ProductNonnegative(b - a, c);
      ProductNonnegative(b - a, 1.0 - c);
      a + (b - a) * c
    else
      ProductNonnegative(a - b, c);
      ProductNonnegative(a - b, 1.0 - c);
      a + (b - a) * c
  }

  lemma ProductNonnegative(x: real, y: real)
    requires 0.0 <= x && 0.0 <= y
    ensures 0.0 <= x * y
  {
  }

  /** Vector3.Lerp, componentwise with the same clamped parameter. */
  function LerpVec(a: Vec3, b: Vec3, t: real): Vec3
  {
    Vec3(Lerp(a.x, b.x, t), Lerp(a.y, b.y, t), Lerp(a.z, b.z, t))
  }

  function Scale(v: Vec3, k: real): Vec3
  {
    Vec3(v.x * k, v.y * k, v.z * k)
  }

  function SquaredMagnitude(v: Vec3): real
  {
    v.x * v.x + v.y * v.y + v.z * v.z
  }

  /** `v.magnitude > Mathf.Epsilon`, compared on squares so that no square root is needed. */
  predicate Moving(v: Vec3)
  {
    SquaredMagnitude(v) > FloatEpsilon * FloatEpsilon
  }

  /** Number of occurrences of `x` in `s`. */
  function Count<T(==)>(x: T, s: seq<T>): (n: nat)
    ensures n <= |s|
    ensures n == 0 <==> x !in s
  {
    if s == [] then 0 else (if s[0] == x then 1 else 0) + Count(x, s[1..])
  }

  lemma CountAppend<T>(x: T, a: seq<T>, b: seq<T>)
    ensures Count(x, a + b) == Count(x, a) + Count(x, b)
  {
    if a == [] {
      assert a + b == b;
    } else {
      assert (a + b)[1..] == a[1..] + b;
      CountAppend(x, a[1..], b);
    }
  }
}

=== FILE: game_manager.dfy ===
/** The spawn director and match coordinator (Assets/GameManager.cs): the
    spawn-point registry gathered at start, the two spawn countdowns, the
    enemy cap, the finite enemy budget, the live-enemy count, the win flag and
    the restart gate. Object creation, the random index and the count of
    zombie objects present in the scene are supplied by the caller. */
module GameManager {
  import opened Common

  datatype SpawnPointType = EnemyPoint | PickupPoint

  /** A child transform of the manager, with the type of its SpawnPoint
      component when it has one. */
  datatype Child = Child(spawn: Option<SpawnPointType>)

  /** Inspector constants of the manager. */
  datatype Config = Config(
    enemySpawnInterval: real, pickupSpawnInterval: real, maxEnemyCount: int, totalEnemyCount: int)

  /** The values the source declares; the enemy cap has no initialiser and so
      starts at zero until set in the inspector. */
  const Defaults: Config := Config(0.5, 2.0, 0, 100)

  /** `enemySpawns` and `pickupSpawns` hold child indices; `occupied` holds
      every child's occupancy flag, meaningful for pickup points. */
  datatype Manager = Manager(
    enemySpawns: seq<nat>, pickupSpawns: seq<nat>, occupied: seq<bool>,
    enemyTimer: real, pickupTimer: real,
    gameWon: bool, enemiesRemaining: int, currentEnemyCount: int)

  /** Every registered pickup point has an occupancy flag. */
  predicate WellFormed(m: Manager)
  {
    forall k :: 0 <= k < |m.pickupSpawns| ==> m.pickupSpawns[k] < |m.occupied|
  }

  /** A random index drawn from [0, n) when n > 0. */
  predicate PickInRange(pick: nat, points: seq<nat>)
  {
    |points| > 0 ==> pick < |points|
  }

  // ---------------------------------------------------------------- start

  /** The indices, in child order, of the children whose spawn point has the
      given type. */
  function SpawnsOfType(children: seq<Child>, kind: SpawnPointType): (r: seq<nat>)
    ensures forall i :: i in r <==> 0 <= i < |children| && children[i].spawn == Some(kind)
    ensures forall k :: 0 <= k < |r| ==> r[k] < |children|
    ensures forall a, b :: 0 <= a < b < |r| ==> r[a] < r[b]
    decreases |children|
  {
    if children == [] then []
    else
      var last := |children| - 1;
      var prefix := SpawnsOfType(children[..last], kind);
      assert forall i :: 0 <= i < last ==> children[..last][i] == children[i];
      if children[last].spawn == Some(kind) then prefix + [last] else prefix
  }

  /** Start: the budget is the configured total, nothing is spawned, nothing
      is won, every spawn point lands in the list of its own type and no
      point is occupied. */
  function Start(cfg: Config, children: seq<Child>): (m: Manager)
    ensures m.enemiesRemaining == cfg.totalEnemyCount && m.currentEnemyCount == 0 && !m.gameWon
    ensures m.enemyTimer == 0.0 && m.pickupTimer == 0.0
    ensures |m.occupied| == |children| && forall i :: 0 <= i < |m.occupied| ==> !m.occupied[i]
    ensures forall i :: 0 <= i < |children| ==>
              (i in m.enemySpawns <==> children[i].spawn == Some(EnemyPoint))
              && (i in m.pickupSpawns <==> children[i].spawn == Some(PickupPoint))
    ensures forall i :: i in m.enemySpawns || i in m.pickupSpawns ==> i < |children|
    ensures WellFormed(m)
  {
    Manager(SpawnsOfType(children, EnemyPoint), SpawnsOfType(children, PickupPoint),
            seq(|children|, _ => false), 0.0, 0.0, false, cfg.totalEnemyCount, 0)
  }

  /** No child is registered twice, and a child without a spawn point is in
      neither list. */
  lemma StartPartitionsChildren(cfg: Config, children: seq<Child>, i: nat)
    requires i < |children|
    ensures !(i in Start(cfg, children).enemySpawns && i in Start(cfg, children).pickupSpawns)
    ensures children[i].spawn.None? ==>
              i !in Start(cfg, children).enemySpawns && i !in Start(cfg, children).pickupSpawns
  {
  }

  // ---------------------------------------------------------------- spawning

  datatype EnemySpawn = CapReached | NoEnemyPoints | EnemySpawned(point: nat)

  datatype EnemyStep = EnemyStep(manager: Manager, outcome: EnemySpawn)

  /** SpawnEnemy. `zombieObjects` is the number of zombie objects in the
      scene, lingering dead ones included. At or above the cap nothing
      changes, the timer included; with no enemy points an error is reported
      and only the timer is reset; otherwise one enemy is spent from the
      budget, the live count grows by one and the timer is reset. */
  function SpawnEnemy(cfg: Config, m: Manager, zombieObjects: nat, pick: nat): (r: EnemyStep)
    requires PickInRange(pick, m.enemySpawns)
    ensures zombieObjects >= cfg.maxEnemyCount <==> r.outcome == CapReached
    ensures r.outcome == CapReached ==> r.manager == m
    ensures r.outcome == NoEnemyPoints <==> zombieObjects < cfg.maxEnemyCount && |m.enemySpawns| == 0
    ensures r.outcome == NoEnemyPoints ==> r.manager == m.(enemyTimer := cfg.enemySpawnInterval)
    ensures r.outcome.EnemySpawned? ==>
              && r.outcome.point == m.enemySpawns[pick]
              && r.manager == m.(enemiesRemaining := m.enemiesRemaining - 1,
                                 currentEnemyCount := m.currentEnemyCount + 1,
                                 enemyTimer := cfg.enemySpawnInterval)
    ensures r.manager.enemiesRemaining + r.manager.currentEnemyCount
         == m.enemiesRemaining + m.currentEnemyCount
  {
    if zombieObjects >= cfg.maxEnemyCount then EnemyStep(m, CapReached)
    else if |m.enemySpawns| > 0 then
      EnemyStep(m.(enemiesRemaining := m.enemiesRemaining - 1,
                   currentEnemyCount := m.currentEnemyCount + 1,
                   enemyTimer := cfg.enemySpawnInterval), EnemySpawned(m.enemySpawns[pick]))
    else EnemyStep(m.(enemyTimer := cfg.enemySpawnInterval), NoEnemyPoints)
  }

  /** With the declared defaults the enemy cap is zero, so every spawn
      attempt is refused at the cap, whatever the object count, and the
      manager does not change. */
  lemma DefaultCapNeverSpawns(m: Manager, zombieObjects: nat, pick: nat)
    requires PickInRange(pick, m.enemySpawns)
    ensures SpawnEnemy(Defaults, m, zombieObjects, pick).outcome == CapReached
    ensures SpawnEnemy(Defaults, m, zombieObjects, pick).manager == m
  {
  }

  datatype PickupSpawn = NoPickupPoints | PointOccupied | PickupSpawned(point: nat)

  datatype PickupStep = PickupStep(manager: Manager, outcome: PickupSpawn)

  /** SpawnPickup: the timer is reset in every case; an error is reported
      when there are no pickup points; an occupied point gets nothing; a free
      point is marked occupied and becomes the new pickup's owner. */
  function SpawnPickup(cfg: Config, m: Manager, pick: nat): (r: PickupStep)
    requires WellFormed(m) && PickInRange(pick, m.pickupSpawns)
    ensures r.manager.pickupTimer == cfg.pickupSpawnInterval
    ensures r.outcome == NoPickupPoints <==> |m.pickupSpawns| == 0
    ensures r.outcome == PointOccupied <==> |m.pickupSpawns| > 0 && m.occupied[m.pickupSpawns[pick]]
    ensures !r.outcome.PickupSpawned? ==> r.manager == m.(pickupTimer := cfg.pickupSpawnInterval)
    ensures r.outcome.PickupSpawned? ==>
              && r.outcome.point == m.pickupSpawns[pick]
              && !m.occupied[r.outcome.point]
              && r.manager == m.(occupied := m.occupied[r.outcome.point := true],
                                 pickupTimer := cfg.pickupSpawnInterval)
    ensures WellFormed(r.manager)
  {
    var m1 := m.(pickupTimer := cfg.pickupSpawnInterval);
    if |m.pickupSpawns| > 0 then
      var point := m.pickupSpawns[pick];
      if !m.occupied[point] then PickupStep(m1.(occupied := m.occupied[point := true]), PickupSpawned(point))
      else PickupStep(m1, PointOccupied)
    else PickupStep(m1, NoPickupPoints)
  }

  /** A pickup's owner point is freed (the write happens in Pickup.cs). */
  function Release(m: Manager, point: nat): (r: Manager)
    requires point < |m.occupied|
    ensures |r.occupied| == |m.occupied| && !r.occupied[point]
    ensures forall i :: 0 <= i < |m.occupied| && i != point ==> r.occupied[i] == m.occupied[i]
    ensures r == m.(occupied := r.occupied)
    ensures WellFormed(m) ==> WellFormed(r)
  {
    m.(occupied := m.occupied[point := false])
  }

  // ---------------------------------------------------------------- frame

  datatype Tick = Tick(manager: Manager, enemy: Option<EnemySpawn>, pickup: Option<PickupSpawn>, restart: bool)

  /** Update: both countdowns run down by the frame time; an enemy spawn is
      attempted when the enemy countdown is below zero and budget remains; a
      pickup spawn when the pickup countdown is below zero; the restart
      request is honoured only when the player is dead or the match is won. */
  function Update(cfg: Config, m: Manager, dt: real, zombieObjects: nat, enemyPick: nat, pickupPick: nat,
                  playerAlive: bool, restartPressed: bool): (r: Tick)
    requires WellFormed(m) && PickInRange(enemyPick, m.enemySpawns) && PickInRange(pickupPick, m.pickupSpawns)
    ensures r.enemy.Some? <==> m.enemyTimer - dt < 0.0 && m.enemiesRemaining > 0
    ensures r.pickup.Some? <==> m.pickupTimer - dt < 0.0
    ensures r.restart <==> (!playerAlive || m.gameWon) && restartPressed
    ensures r.enemy == Some(CapReached) <==> r.enemy.Some? && zombieObjects >= cfg.maxEnemyCount
    ensures r.manager.enemyTimer
         == if r.enemy.None? || r.enemy == Some(CapReached) then m.enemyTimer - dt else cfg.enemySpawnInterval
    ensures r.manager.pickupTimer == if r.pickup.None? then m.pickupTimer - dt else cfg.pickupSpawnInterval
    ensures r.manager.enemiesRemaining
         == if r.enemy.Some? && r.enemy.value.EnemySpawned? then m.enemiesRemaining - 1 else m.enemiesRemaining
    ensures r.manager.enemiesRemaining + r.manager.currentEnemyCount
         == m.enemiesRemaining + m.currentEnemyCount
    ensures 0 <= m.enemiesRemaining ==> 0 <= r.manager.enemiesRemaining
    ensures r.manager.gameWon == m.gameWon
    ensures r.enemy.Some? && r.enemy.value.EnemySpawned? ==> r.enemy.value.point in m.enemySpawns
    ensures r.manager.enemySpawns == m.enemySpawns && r.manager.pickupSpawns == m.pickupSpawns
    ensures r.pickup.None? || !r.pickup.value.PickupSpawned? ==> r.manager.occupied == m.occupied
    ensures r.pickup.Some? && r.pickup.value.PickupSpawned? ==>
              && r.pickup.value.point in m.pickupSpawns
              && !m.occupied[r.pickup.value.point]
              && r.manager.occupied == m.occupied[r.pickup.value.point := true]
    ensures WellFormed(r.manager)
  {
    var e := TryEnemy(cfg, m.(enemyTimer := m.enemyTimer - dt, pickupTimer := m.pickupTimer - dt), zombieObjects, enemyPick);
    var p := TryPickup(cfg, e.manager, pickupPick);
    Tick(p.manager, e.outcome, p.outcome, (!playerAlive || p.manager.gameWon) && restartPressed)
  }

  datatype EnemyAttempt = EnemyAttempt(manager: Manager, outcome: Option<EnemySpawn>)
  datatype PickupAttempt = PickupAttempt(manager: Manager, outcome: Option<PickupSpawn>)

  /** The enemy half of a frame, on the already advanced countdowns: a spawn
      is attempted iff the countdown is below zero and budget remains; only
      the enemy countdown and the two counters can change. */
  function TryEnemy(cfg: Config, m: Manager, zombieObjects: nat, pick: nat): (r: EnemyAttempt)
    requires PickInRange(pick, m.enemySpawns)
    ensures r.outcome.Some? <==> m.enemyTimer < 0.0 && m.enemiesRemaining > 0
    ensures r.outcome == Some(CapReached) <==> r.outcome.Some? && zombieObjects >= cfg.maxEnemyCount
    ensures r.manager == m.(enemyTimer := r.manager.enemyTimer, enemiesRemaining := r.manager.enemiesRemaining,
                            currentEnemyCount := r.manager.currentEnemyCount)
    ensures r.manager.enemyTimer
         == if r.outcome.None? || r.outcome == Some(CapReached) then m.enemyTimer else cfg.enemySpawnInterval
    ensures r.manager.enemiesRemaining
         == if r.outcome.Some? && r.outcome.value.EnemySpawned? then m.enemiesRemaining - 1 else m.enemiesRemaining
    ensures r.manager.enemiesRemaining + r.manager.currentEnemyCount == m.enemiesRemaining + m.currentEnemyCount
    ensures 0 <= m.enemiesRemaining ==> 0 <= r.manager.enemiesRemaining
    ensures r.outcome.Some? && r.outcome.value.EnemySpawned? ==> r.outcome.value.point in m.enemySpawns
  {
    if m.enemyTimer < 0.0 && m.enemiesRemaining > 0
    then var s := SpawnEnemy(cfg, m, zombieObjects, pick); EnemyAttempt(s.manager, Some(s.outcome))
    else EnemyAttempt(m, None)
  }

  /** The pickup half of a frame: a spawn is attempted iff the countdown is
      below zero; only the pickup countdown and the occupancy flags can
      change. */
  function TryPickup(cfg: Config, m: Manager, pick: nat): (r: PickupAttempt)
    requires WellFormed(m) && PickInRange(pick, m.pickupSpawns)
    ensures r.outcome.Some? <==> m.pickupTimer < 0.0
    ensures r.manager == m.(pickupTimer := r.manager.pickupTimer, occupied := r.manager.occupied)
    ensures r.manager.pickupTimer == if r.outcome.None? then m.pickupTimer else cfg.pickupSpawnInterval
    ensures r.outcome.None? || !r.outcome.value.PickupSpawned? ==> r.manager.occupied == m.occupied
    ensures r.outcome.Some? && r.outcome.value.PickupSpawned? ==>
              && r.outcome.value.point in m.pickupSpawns
              && !m.occupied[r.outcome.value.point]
              && r.manager.occupied == m.occupied[r.outcome.value.point := true]
    ensures WellFormed(r.manager)
  {
    if m.pickupTimer < 0.0
    then var s := SpawnPickup(cfg, m, pick); PickupAttempt(s.manager, Some(s.outcome))
    else PickupAttempt(m, None)
  }

  // ---------------------------------------------------------------- deaths and the win

  /** Both the budget and the live count are used up. */
  predicate IsGameWon(m: Manager)
  {
    m.enemiesRemaining <= 0 && m.currentEnemyCount <= 0
  }

  datatype DeathStep = DeathStep(manager: Manager, wonNow: bool)

  /** EnemyDied: the live count drops by exactly one and the win is checked;
      the GameWon notification (`wonNow`) fires only on the death that
      completes a fully spent budget, and only if the match was not already
      won. The win flag is never cleared. */
  function EnemyDied(m: Manager): (r: DeathStep)
    ensures r.manager.currentEnemyCount == m.currentEnemyCount - 1
    ensures r.wonNow <==> !m.gameWon && m.enemiesRemaining <= 0 && m.currentEnemyCount <= 1
    ensures r.manager.gameWon <==> m.gameWon || r.wonNow
    ensures r.manager.gameWon ==> IsGameWon(r.manager) || m.gameWon
    ensures r.manager == m.(currentEnemyCount := r.manager.currentEnemyCount, gameWon := r.manager.gameWon)
  {
    var m1 := m.(currentEnemyCount := m.currentEnemyCount - 1);
    if IsGameWon(m1) && !m1.gameWon then DeathStep(m1.(gameWon := true), true)
    else DeathStep(m1, false)
  }

  /** The example of a three-enemy match: with a cap of at least three and an
      enemy point, three spawns in a row all succeed and spend the budget, and
      the win fires on the third death and not before. */
  lemma ThreeEnemyMatch(cfg: Config, children: seq<Child>)
    requires cfg.totalEnemyCount == 3 && cfg.maxEnemyCount >= 3
    requires Child(Some(EnemyPoint)) in children
    ensures var m0 := Start(cfg, children);
            var s1 := SpawnEnemy(cfg, m0, 0, 0);
            var s2 := SpawnEnemy(cfg, s1.manager, 1, 0);
            var s3 := SpawnEnemy(cfg, s2.manager, 2, 0);
            && s1.outcome.EnemySpawned? && s2.outcome.EnemySpawned? && s3.outcome.EnemySpawned?
            && s3.manager.enemiesRemaining == 0 && s3.manager.currentEnemyCount == 3
            && var d1 := EnemyDied(s3.manager);
            var d2 := EnemyDied(d1.manager);
            var d3 := EnemyDied(d2.manager);
            !d1.wonNow && !d2.wonNow && d3.wonNow && d3.manager.gameWon
  {
    var i :| 0 <= i < |children| && children[i] == Child(Some(EnemyPoint));
    assert i in Start(cfg, children).enemySpawns;
  }
}

=== FILE: pickup.dfy ===
/** Pickup consumption (Assets/Pickup.cs): a player touching a pickup calls
    AddHealth or AddAmmo according to the pickup's type, the pickup is
    destroyed only when that call succeeds, and the owning spawn point (if
    any) is freed on every player contact. Spinning is presentation only. */
module Pickups {
  import opened Common
  import Players

  datatype PickupType = Health | Ammo

  /** `owner` is the child index of the spawn point the pickup was placed at;
      a zombie's loot drop has none. */
  datatype Pickup = Pickup(kind: PickupType, count: int, owner: Option<nat>)

  /** The pickup prefab's restore amount when the inspector does not change it. */
  const DefaultCount: int := 25

  /** The health pickup a dying zombie leaves behind. It has no owning spawn
      point, so no contact with it ever frees a point, and touching it can only
      change the player's health. */
  function LootDrop(count: int): (pk: Pickup)
    ensures pk.kind == Health && pk.count == count
    ensures forall cfg, byPlayer, p :: OnTriggerEnter(cfg, pk, byPlayer, p).release.None?
    ensures forall cfg, byPlayer, p ::
              OnTriggerEnter(cfg, pk, byPlayer, p).player == p.(health := OnTriggerEnter(cfg, pk, byPlayer, p).player.health)
  {
    Pickup(Health, count, None)
  }

  /** `destroyed` is the pickup's destruction, `release` the spawn point to
      mark free. */
  datatype Contact = Contact(player: Players.Player, destroyed: bool, release: Option<nat>)

  /** OnTriggerEnter. A non-player contact changes nothing. A player contact
      frees the owner whether or not anything was taken; the pickup is
      destroyed iff the matching add succeeded, which needs a live player
      whose counter of that type is below its maximum; only that counter
      changes. */
  function OnTriggerEnter(cfg: Players.Config, pk: Pickup, byPlayer: bool, p: Players.Player): (r: Contact)
    ensures !byPlayer ==> r == Contact(p, false, None)
    ensures byPlayer ==> r.release == pk.owner
    ensures byPlayer && pk.kind == Health ==> (r.destroyed <==> Players.IsAlive(p) && p.health < cfg.maxHealth)
    ensures byPlayer && pk.kind == Ammo ==> (r.destroyed <==> Players.IsAlive(p) && p.ammo < cfg.maxAmmo)
    ensures !r.destroyed ==> r.player == p
    ensures r.destroyed && pk.kind == Health ==> r.player == p.(health := Min(p.health + pk.count, cfg.maxHealth))
    ensures r.destroyed && pk.kind == Ammo ==> r.player == p.(ammo := Min(p.ammo + pk.count, cfg.maxAmmo))
    ensures Players.Bounded(cfg, p) && 0 <= pk.count ==> Players.Bounded(cfg, r.player)
  {
    if !byPlayer then Contact(p, false, None)
    else
      var added := match pk.kind
        case Health => Players.AddHealth(cfg, p, pk.count)
        case Ammo => Players.AddAmmo(cfg, p, pk.count);
      Contact(added.player, added.added, pk.owner)
  }
}

=== FILE: player.dfy ===
/** The player's bookkeeping: bounded health and ammo, the one-way death edge,
    the fire gate, the jump request, the grounded/airborne velocity rule, the
    camera pitch clamp and the frozen death camera (Assets/Player.cs).
    Vector directions, smoothing of orientations, particles and the raycast
    itself are engine work and enter only as parameters. */
module Players {
  import opened Common

  /** Inspector constants of the player that the bookkeeping reads. */
  datatype Config = Config(
    movementSpeed: real, aimSpeedModifier: real, acceleration: real,
    jumpSpeed: real, airControl: real,
    maxHealth: int, maxAmmo: int, gunDamage: int, gunForce: real,
    mouseSensitivityX: real, mouseSensitivityY: real, aimSensModifier: real,
    minPitch: real, maxPitch: real)

  /** The values the source declares as field initialisers. */
  const Defaults: Config := Config(10.0, 0.5, 10.0, 5.0, 0.1, 100, 40, 35, 200.0, 1.0, 1.0, 1.0, -50.0, 89.0)

  /** `cameraSlotPos` is where the camera rig currently stands; `deathCamPos`
      is the rig position recorded at the death edge; `cameraDetached` and
      `ragdoll` record that the rig was unparented and the body's rotation
      constraints were released. */
  datatype Player = Player(
    health: int, ammo: int,
    aiming: bool, grounded: bool, shouldJump: bool,
    inputVec: Vec3, currentInputVec: Vec3, velocity: Vec3,
    yaw: real, pitch: real,
    cameraSlotPos: Vec3, deathCamPos: Vec3, cameraDetached: bool, ragdoll: bool)

  predicate IsAlive(p: Player)
  {
    p.health > 0
  }

  /** Health and ammo lie within [0, max]. */
  predicate Bounded(cfg: Config, p: Player)
  {
    0 <= p.health <= cfg.maxHealth && 0 <= p.ammo <= cfg.maxAmmo
  }

  /** Start: both counters full, every other field at its default. */
  function Start(cfg: Config, cameraSlot: Vec3): (p: Player)
    ensures p.health == cfg.maxHealth && p.ammo == cfg.maxAmmo
    ensures IsAlive(p) <==> cfg.maxHealth > 0
    ensures 0 <= cfg.maxHealth && 0 <= cfg.maxAmmo ==> Bounded(cfg, p)
    ensures !p.aiming && !p.shouldJump && !p.cameraDetached && !p.ragdoll
    ensures p.cameraSlotPos == cameraSlot
  {
    Player(cfg.maxHealth, cfg.maxAmmo, false, false, false, Zero, Zero, Zero,
           0.0, 0.0, cameraSlot, Zero, false, false)
  }

  // ---------------------------------------------------------------- damage

  datatype HitOutcome = HitOutcome(player: Player, died: bool)

  /** What the death edge does to the player: aiming off, both input vectors
      zeroed, the camera rig position recorded and the rig detached, the body
      released to tumble; nothing else changes. */
  predicate DeathEdge(before: Player, after: Player)
  {
    after == before.(health := 0, aiming := false, inputVec := Zero, currentInputVec := Zero,
                     deathCamPos := before.cameraSlotPos, cameraDetached := true, ragdoll := true)
  }

  /** Hit: a dead player ignores damage; otherwise health drops, clamped at
      zero, and the hit that reaches zero is the death edge (`died` stands for
      the death impulse and the PlayerDied notification to the UI). */
  function Hit(p: Player, damage: int): (r: HitOutcome)
    ensures !IsAlive(p) ==> r == HitOutcome(p, false)
    ensures IsAlive(p) ==> r.player.health == Max(p.health - damage, 0)
    ensures r.died <==> IsAlive(p) && damage >= p.health
    ensures r.died ==> DeathEdge(p, r.player) && !IsAlive(r.player)
    ensures !r.died ==> r.player == p.(health := r.player.health)
    ensures 0 <= p.health && 0 <= damage ==> 0 <= r.player.health <= p.health
  {
    if !IsAlive(p) then HitOutcome(p, false)
    else
      var health := Max(p.health - damage, 0);
      if health <= 0 then
        HitOutcome(p.(health := health, aiming := false, inputVec := Zero, currentInputVec := Zero,
                      deathCamPos := p.cameraSlotPos, cameraDetached := true, ragdoll := true), true)
      else
        HitOutcome(p.(health := health), false)
  }

  /** Number of death edges along a sequence of hits. */
  function Deaths(p: Player, damages: seq<int>): nat
    decreases |damages|
  {
    if damages == [] then 0
    else
      var o := Hit(p, damages[0]);
      (if o.died then 1 else 0) + Deaths(o.player, damages[1..])
  }

  lemma {:induction false} DeadPlayerNeverDiesAgain(p: Player, damages: seq<int>)
    requires !IsAlive(p)
    ensures Deaths(p, damages) == 0
    decreases |damages|
  {
    if damages != [] {
      DeadPlayerNeverDiesAgain(p, damages[1..]);
    }
  }

  /** The death edge fires at most once per player, and never for one that is already dead. */
  lemma {:induction false} DeathEdgeAtMostOnce(p: Player, damages: seq<int>)
    ensures Deaths(p, damages) <= 1
    ensures !IsAlive(p) ==> Deaths(p, damages) == 0
    decreases |damages|
  {
    if damages != [] {
      var o := Hit(p, damages[0]);
      if o.died {
        DeadPlayerNeverDiesAgain(o.player, damages[1..]);
      } else {
        DeathEdgeAtMostOnce(o.player, damages[1..]);
      }
    }
  }

  // ---------------------------------------------------------------- pickups

  datatype AddOutcome = AddOutcome(player: Player, added: bool)

  /** AddHealth: refused (false, nothing changes) when health is already full
      or the player is dead; otherwise health rises by `count`, capped at max. */
  function AddHealth(cfg: Config, p: Player, count: int): (r: AddOutcome)
    ensures r.added <==> IsAlive(p) && p.health < cfg.maxHealth
    ensures !r.added ==> r.player == p
    ensures r.added ==> r.player == p.(health := Min(p.health + count, cfg.maxHealth))
    ensures r.added && 0 <= count ==> p.health <= r.player.health <= cfg.maxHealth
  {
    if p.health >= cfg.maxHealth then AddOutcome(p, false)
    else if IsAlive(p) then AddOutcome(p.(health := Min(p.health + count, cfg.maxHealth)), true)
    else AddOutcome(p, false)
  }

  /** AddAmmo: refused when ammo is already full or the player is dead;
      otherwise ammo rises by `count`, capped at max. */
  function AddAmmo(cfg: Config, p: Player, count: int): (r: AddOutcome)
    ensures r.added <==> IsAlive(p) && p.ammo < cfg.maxAmmo
    ensures !r.added ==> r.player == p
    ensures r.added ==> r.player == p.(ammo := Min(p.ammo + count, cfg.maxAmmo))
    ensures r.added && 0 <= count ==> p.ammo <= r.player.ammo <= cfg.maxAmmo
  {
    if p.ammo >= cfg.maxAmmo then AddOutcome(p, false)
    else if IsAlive(p) then AddOutcome(p.(ammo := Min(p.ammo + count, cfg.maxAmmo)), true)
    else AddOutcome(p, false)
  }

  // ---------------------------------------------------------------- input and firing

  /** What the forward raycast reports: nothing, a live zombie, a zombie that
      is already dead (it still has a rigidbody), another rigidbody, or a
      surface without one. */
  datatype RayHit = Miss | LiveZombie | DeadZombie | Body | Surface

  /** What a shot does to the object it hit. */
  datatype ShotEffect = NoEffect | Damage(amount: int) | Push(force: real)

  /** One frame's sampled input. `move` is the camera-relative, normalised,
      sprint-scaled movement vector; `firePressed` and `jumpPressed` are fresh
      presses, `aimHeld` is the held aim button. */
  datatype InputSample = InputSample(
    move: Vec3, jumpPressed: bool, firePressed: bool, aimHeld: bool, mouseX: real, mouseY: real)

  /** The fire gate: alive, already aiming, a fresh press and a bullet left. */
  predicate CanFire(p: Player, firePressed: bool)
  {
    IsAlive(p) && p.aiming && firePressed && p.ammo > 0
  }

  /** A live zombie takes the gun damage and no separate impulse; a dead
      zombie or another rigidbody gets only the gun impulse. */
  function ShotEffectOf(cfg: Config, hit: RayHit): (e: ShotEffect)
    ensures e.Damage? <==> hit == LiveZombie
    ensures e.Push? <==> hit == DeadZombie || hit == Body
    ensures e.Damage? ==> e.amount == cfg.gunDamage
    ensures e.Push? ==> e.force == cfg.gunForce
  {
    match hit
    case LiveZombie => Damage(cfg.gunDamage)
    case DeadZombie => Push(cfg.gunForce)
    case Body => Push(cfg.gunForce)
    case _ => NoEffect
  }

  datatype InputOutcome = InputOutcome(player: Player, shot: Option<ShotEffect>)

  function LookScale(cfg: Config, aiming: bool): real
  {
    if aiming then cfg.aimSensModifier else 1.0
  }

  /** The alive-only part of UpdateInput: the movement vector, the jump
      request and the fire gate read last frame's aiming state, then aiming is
      refreshed. */
  function ActInput(cfg: Config, p: Player, s: InputSample, hit: RayHit): InputOutcome
    requires IsAlive(p)
  {
    var p1 := p.(inputVec := s.move);
    var p2 := if s.jumpPressed && p.grounded && !p.aiming then p1.(shouldJump := true) else p1;
    var fired := CanFire(p, s.firePressed);
    var p3 := if fired then p2.(ammo := p2.ammo - 1) else p2;
    InputOutcome(p3.(aiming := s.aimHeld), if fired then Some(ShotEffectOf(cfg, hit)) else None)
  }

  /** UpdateInput: movement, jumping and firing only while alive; camera look
      in every state, with pitch clamped to [-maxPitch, -minPitch]. */
  function UpdateInput(cfg: Config, p: Player, s: InputSample, hit: RayHit): (r: InputOutcome)
    ensures r.shot.Some? <==> CanFire(p, s.firePressed)
    ensures r.shot.Some? ==> r.shot.value == ShotEffectOf(cfg, hit)
    ensures r.player.ammo == if CanFire(p, s.firePressed) then p.ammo - 1 else p.ammo
    ensures 0 <= p.ammo ==> 0 <= r.player.ammo <= p.ammo
    ensures r.player.health == p.health && r.player.grounded == p.grounded
    ensures r.player.shouldJump <==> p.shouldJump || (IsAlive(p) && s.jumpPressed && p.grounded && !p.aiming)
    ensures r.player.aiming == if IsAlive(p) then s.aimHeld else p.aiming
    ensures IsAlive(p) ==> r.player.inputVec == s.move
    ensures !IsAlive(p) ==> r.shot.None? && r.player == p.(yaw := r.player.yaw, pitch := r.player.pitch)
    ensures cfg.minPitch <= cfg.maxPitch ==> -cfg.maxPitch <= r.player.pitch <= -cfg.minPitch
    ensures r.player.cameraSlotPos == p.cameraSlotPos && r.player.deathCamPos == p.deathCamPos
  {
    var acted := if IsAlive(p) then ActInput(cfg, p, s, hit) else InputOutcome(p, None);
    var q := acted.player;
    var k := LookScale(cfg, q.aiming);
    var yaw := q.yaw + s.mouseX * cfg.mouseSensitivityX * k;
    var pitch := Clamp(q.pitch + s.mouseY * cfg.mouseSensitivityY * k, -cfg.maxPitch, -cfg.minPitch);
    InputOutcome(q.(yaw := yaw, pitch := pitch), acted.shot)
  }

  /** The ground trigger fired: the player is grounded, so the next
      movement step may jump, and nothing else changes. */
  function Land(p: Player): (q: Player)
    ensures q.grounded
    ensures q == p.(grounded := q.grounded)
  {
    p.(grounded := true)
  }

  // ---------------------------------------------------------------- movement

  /** The velocity the (smoothed) input asks for, slowed while aiming. */
  function InputVelocity(cfg: Config, smoothed: Vec3, aiming: bool): Vec3
  {
    Scale(smoothed, cfg.movementSpeed * (if aiming then cfg.aimSpeedModifier else 1.0))
  }

  function Horizontal(v: Vec3): (real, real)
  {
    (v.x, v.z)
  }

  /** The horizontal velocity rule: replaced by the target on the ground,
      blended toward it by `airControl` in the air when `steering`, otherwise
      left alone; the vertical component is never touched. */
  function SteerVelocity(v: Vec3, target: Vec3, grounded: bool, steering: bool, airControl: real): (w: Vec3)
    ensures w.y == v.y
    ensures grounded ==> Horizontal(w) == Horizontal(target)
    ensures !grounded && !steering ==> w == v
    ensures !grounded && steering && airControl >= 1.0 ==> Horizontal(w) == Horizontal(target)
    ensures !grounded && steering && airControl <= 0.0 ==> w == v
    ensures !grounded && steering && v.x <= target.x ==> v.x <= w.x <= target.x
    ensures !grounded && steering && target.x <= v.x ==> target.x <= w.x <= v.x
    ensures !grounded && steering && v.z <= target.z ==> v.z <= w.z <= target.z
    ensures !grounded && steering && target.z <= v.z ==> target.z <= w.z <= v.z
  {
    if grounded then Vec3(target.x, v.y, target.z)
    else if steering then Vec3(Lerp(v.x, target.x, airControl), v.y, Lerp(v.z, target.z, airControl))
    else v
  }

  /** Air steering happens only with input and with some air control. */
  predicate Steering(cfg: Config, p: Player)
  {
    Moving(p.inputVec) && cfg.airControl > FloatEpsilon
  }

  /** The input vector after one step of exponential smoothing. */
  function Smoothed(cfg: Config, p: Player, dt: real): Player
  {
    p.(currentInputVec := LerpVec(p.currentInputVec, p.inputVec, cfg.acceleration * dt))
  }

  /** UpdateMovement (fixed rate): nothing while dead; on the ground the
      horizontal velocity is replaced by the input velocity; in the air it is
      blended toward it only when there is input and some air control; the
      vertical component changes only by a pending jump, which clears both the
      request and the grounded flag. */
  function UpdateMovement(cfg: Config, p: Player, dt: real): (q: Player)
    ensures !IsAlive(p) ==> q == p
    ensures IsAlive(p) && p.grounded ==> Horizontal(q.velocity) == Horizontal(InputVelocity(cfg, q.currentInputVec, q.aiming))
    ensures (IsAlive(p) && !p.grounded && !Steering(cfg, p))
            ==> Horizontal(q.velocity) == Horizontal(p.velocity)
    ensures IsAlive(p) ==> q.velocity.y == p.velocity.y + (if p.shouldJump then cfg.jumpSpeed else 0.0)
    ensures IsAlive(p) ==> !q.shouldJump && q.grounded == (p.grounded && !p.shouldJump)
    ensures q.health == p.health && q.ammo == p.ammo && q.aiming == p.aiming && q.inputVec == p.inputVec
    ensures IsAlive(p) && cfg.acceleration * dt >= 1.0 ==> q.currentInputVec == p.inputVec
    ensures IsAlive(p) && cfg.acceleration * dt <= 0.0 ==> q.currentInputVec == p.currentInputVec
    ensures IsAlive(p) && p.currentInputVec.x <= p.inputVec.x ==> p.currentInputVec.x <= q.currentInputVec.x <= p.inputVec.x
    ensures IsAlive(p) && p.inputVec.x <= p.currentInputVec.x ==> p.inputVec.x <= q.currentInputVec.x <= p.currentInputVec.x
    ensures IsAlive(p) && p.currentInputVec.z <= p.inputVec.z ==> p.currentInputVec.z <= q.currentInputVec.z <= p.inputVec.z
    ensures IsAlive(p) && p.inputVec.z <= p.currentInputVec.z ==> p.inputVec.z <= q.currentInputVec.z <= p.currentInputVec.z
  {
    if !IsAlive(p) then p
    else
      var p1 := Smoothed(cfg, p, dt);
      var v1 := SteerVelocity(p.velocity, InputVelocity(cfg, p1.currentInputVec, p.aiming), p.grounded, Steering(cfg, p), cfg.airControl);
      if p.shouldJump then
        p1.(velocity := v1.(y := v1.y + cfg.jumpSpeed), shouldJump := false, grounded := false)
      else
        p1.(velocity := v1)
  }

  /** With full air control an airborne, moving player gets exactly the
      horizontal velocity it would get on the ground. */
  lemma FullAirControlTracksGround(cfg: Config, p: Player, dt: real)
    requires IsAlive(p) && Moving(p.inputVec) && cfg.airControl >= 1.0
    ensures Horizontal(UpdateMovement(cfg, p.(grounded := false), dt).velocity)
         == Horizontal(UpdateMovement(cfg, p.(grounded := true), dt).velocity)
  {
    assert FloatEpsilon < 1.0;
    assert Steering(cfg, p.(grounded := false));
  }

  // ---------------------------------------------------------------- camera

  /** UpdateCamera's rig placement: it follows the (smoothed) target while
      the player is alive and stays at the recorded death position once dead. */
  function UpdateCamera(p: Player, follow: Vec3): (q: Player)
    ensures IsAlive(p) ==> q.cameraSlotPos == follow
    ensures !IsAlive(p) ==> q.cameraSlotPos == p.deathCamPos
    ensures q == p.(cameraSlotPos := q.cameraSlotPos)
  {
    if IsAlive(p) then p.(cameraSlotPos := follow) else p.(cameraSlotPos := p.deathCamPos)
  }

  function CameraFrames(p: Player, follows: seq<Vec3>): Player
    decreases |follows|
  {
    if follows == [] then p else CameraFrames(UpdateCamera(p, follows[0]), follows[1..])
  }

  /** After the death edge the camera rig stays where it stood at the fatal
      hit, however many camera frames follow. */
  lemma {:induction false} DeathCameraFrozen(p: Player, damage: int, follows: seq<Vec3>)
    requires Hit(p, damage).died
    ensures CameraFrames(Hit(p, damage).player, follows).cameraSlotPos == p.cameraSlotPos
  {
    FrozenStaysFrozen(Hit(p, damage).player, follows);
  }

  lemma {:induction false} FrozenStaysFrozen(q: Player, follows: seq<Vec3>)
    requires !IsAlive(q) && q.cameraSlotPos == q.deathCamPos
    ensures CameraFrames(q, follows) == q
    decreases |follows|
  {
    if follows != [] {
      assert UpdateCamera(q, follows[0]) == q;
      FrozenStaysFrozen(q, follows[1..]);
    }
  }
}

=== FILE: scene.dfy ===
/** One loaded scene: the player, the game manager, every zombie and pickup
    object present, and the engine events that drive them. Each event is one
    entry point of the source (a frame update, a physics step, a trigger
    contact, the delayed removal of a dead zombie); cross-object calls (a
    shot hitting a zombie, a zombie's death reaching the manager, an attack
    hitting the player, a pickup freeing its spawn point) happen inside the
    event that makes them, as in the source. Reloading the scene rebuilds
    everything from the configuration. */
module Scene {
  import opened Common
  import Players
  import Zombies
  import GameManager
  import Pickups

  datatype Config = Config(
    player: Players.Config, zombie: Zombies.Config, manager: GameManager.Config,
    children: seq<GameManager.Child>, ammoPickupCount: int, healthPickupCount: int,
    cameraSlot: Vec3)

  /** Zombie and pickup objects are keyed by instance ids handed out in
      creation order. */
  datatype World = World(
    player: Players.Player, manager: GameManager.Manager,
    zombies: map<nat, Zombies.Zombie>, pickups: map<nat, Pickups.Pickup>,
    nextZombie: nat, nextPickup: nat)

  /** What the UI and the log receive. */
  datatype Notice = PlayerDiedShown | GameWonShown | NoEnemySpawnPoints | NoPickupSpawnPoints | SceneReloaded

  datatype Outcome = Outcome(world: World, notices: seq<Notice>)

  /** What one event does short of a reload: the win flag is not cleared,
      a dead player is not revived, and each of GameWon and PlayerDied is
      shown at most once, by the step that makes its transition. */
  predicate Monotone(w: World, r: Outcome)
  {
    && (w.manager.gameWon ==> r.world.manager.gameWon)
    && Count(GameWonShown, r.notices) <= 1
    && (GameWonShown in r.notices ==> !w.manager.gameWon && r.world.manager.gameWon)
    && (!Players.IsAlive(w.player) ==> !Players.IsAlive(r.world.player))
    && Count(PlayerDiedShown, r.notices) <= 1
    && (PlayerDiedShown in r.notices ==> Players.IsAlive(w.player) && !Players.IsAlive(r.world.player))
  }

  /** Loading (or reloading) the scene: every object starts from its
      configuration, no enemy or pickup exists and no point is occupied. */
  function Load(cfg: Config): (w: World)
    ensures w.manager.enemiesRemaining == cfg.manager.totalEnemyCount
    ensures w.manager.currentEnemyCount == 0 && !w.manager.gameWon
    ensures w.zombies == map[] && w.pickups == map[]
    ensures forall i :: 0 <= i < |w.manager.occupied| ==> !w.manager.occupied[i]
    ensures w.player.health == cfg.player.maxHealth && w.player.ammo == cfg.player.maxAmmo
  {
    World(Players.Start(cfg.player, cfg.cameraSlot), GameManager.Start(cfg.manager, cfg.children),
          map[], map[], 0, 0)
  }

  // ---------------------------------------------------------------- invariant

  /** Zombies whose health is still above zero. */
  function AliveZombies(zs: map<nat, Zombies.Zombie>): set<nat>
  {
    set id | id in zs && Zombies.IsAlive(zs[id])
  }

  /** Some pickup object names `point` as its owner. */
  predicate Hosted(pickups: map<nat, Pickups.Pickup>, point: nat)
  {
    exists id :: id in pickups && pickups[id].owner == Some(point)
  }

  /** Configurations under which the counters stay in range: non-negative
      maxima, damages, restore amounts and budget, and zombies that start
      alive. */
  predicate ConfigOk(cfg: Config)
  {
    && 0 <= cfg.player.maxHealth && 0 <= cfg.player.maxAmmo && 0 <= cfg.player.gunDamage
    && 0 < cfg.zombie.maxHealth && 0 <= cfg.zombie.attackDamage
    && 0 <= cfg.manager.totalEnemyCount
    && 0 <= cfg.ammoPickupCount && 0 <= cfg.healthPickupCount
  }

  /** The scene with every script at its declared defaults, both pickup
      prefabs restoring the default amount. It is a sane configuration, so the
      invariant holds from its first load on. */
  function DefaultConfig(children: seq<GameManager.Child>, cameraSlot: Vec3): (cfg: Config)
    ensures ConfigOk(cfg)
    ensures cfg.children == children && cfg.cameraSlot == cameraSlot
  {
    Config(Players.Defaults, Zombies.Defaults, GameManager.Defaults, children,
           Pickups.DefaultCount, Pickups.DefaultCount, cameraSlot)
  }

  predicate ZombiesOk(cfg: Config, w: World)
  {
    forall id :: id in w.zombies ==> id < w.nextZombie && Zombies.Consistent(cfg.zombie, w.zombies[id])
  }

  /** The enemy bookkeeping: the budget plus the enemies ever spawned is the
      configured total, the live count is the number of live zombies, the
      zombie objects never exceed the cap, and a won match has nothing left. */
  predicate Budget(cfg: Config, w: World)
  {
    && 0 <= w.manager.enemiesRemaining
    && w.manager.enemiesRemaining + w.nextZombie == cfg.manager.totalEnemyCount
    && w.manager.currentEnemyCount == |AliveZombies(w.zombies)|
    && |w.zombies| <= Max(cfg.manager.maxEnemyCount, 0)
    && (w.manager.gameWon ==> w.manager.enemiesRemaining == 0 && w.manager.currentEnemyCount == 0)
  }

  /** Owned pickups are ammo pickups at registered pickup points; unowned
      ones are zombie loot. */
  predicate PickupOk(m: GameManager.Manager, pk: Pickups.Pickup)
  {
    && 0 <= pk.count
    && (pk.owner.Some? <==> pk.kind == Pickups.Ammo)
    && (pk.owner.Some? ==> pk.owner.value in m.pickupSpawns)
  }

  predicate PickupsOk(w: World)
  {
    forall id :: id in w.pickups ==> id < w.nextPickup && PickupOk(w.manager, w.pickups[id])
  }

  /** An occupied point is a registered pickup point hosting a pickup. */
  predicate OccupancyOk(w: World)
  {
    forall pt :: 0 <= pt < |w.manager.occupied| && w.manager.occupied[pt] ==>
      pt in w.manager.pickupSpawns && Hosted(w.pickups, pt)
  }

  predicate Inv(cfg: Config, w: World)
  {
    && ConfigOk(cfg)
    && Players.Bounded(cfg.player, w.player)
    && GameManager.WellFormed(w.manager)
    && ZombiesOk(cfg, w)
    && Budget(cfg, w)
    && PickupsOk(w)
    && OccupancyOk(w)
  }

  // ---------------------------------------------------------------- events

  /** Where the player's shot went. */
  datatype Aim = AimMiss | AimZombie(id: nat) | AimBody | AimSurface

  datatype Event =
    | ManagerFrame(dt: real, enemyPick: nat, pickupPick: nat, restartPressed: bool)
    | PlayerFrame(input: Players.InputSample, aim: Aim, lootDraw: real)
    | PlayerPhysics(dt: real)
    | PlayerCamera(follow: Vec3)
    | PlayerLanded
    | PhysicsVelocity(velocity: Vec3)
    | ZombieFrame(id: nat, dt: real, distance: real)
    | PickupTouched(id: nat, byPlayer: bool)
    | ZombieRemoved(id: nat)

  /** Events the engine can deliver in this state: random indices in range,
      and only objects that exist; a zombie is removed only after its
      removal was scheduled. */
  predicate Admissible(w: World, e: Event)
  {
    match e
    case ManagerFrame(_, ep, pp, _) =>
      GameManager.PickInRange(ep, w.manager.enemySpawns) && GameManager.PickInRange(pp, w.manager.pickupSpawns)
    case PlayerFrame(_, aim, draw) => (aim.AimZombie? ==> aim.id in w.zombies) && 0.0 <= draw <= 1.0
    case ZombieFrame(id, _, _) => id in w.zombies
    case PickupTouched(id, _) => id in w.pickups
    case ZombieRemoved(id) => id in w.zombies && w.zombies[id].removalScheduled
    case _ => true
  }

  /** The manager's frame: countdowns, spawns, the restart gate. A spawned
      enemy is a new zombie object in its Awake state; a spawned pickup is a
      new ammo pickup owned by its point; a restart reloads the scene. */
  function ManagerStep(cfg: Config, w: World, dt: real, enemyPick: nat, pickupPick: nat, restartPressed: bool): (r: Outcome)
    requires GameManager.WellFormed(w.manager)
    requires GameManager.PickInRange(enemyPick, w.manager.enemySpawns)
    requires GameManager.PickInRange(pickupPick, w.manager.pickupSpawns)
    ensures SceneReloaded in r.notices <==> restartPressed && (!Players.IsAlive(w.player) || w.manager.gameWon)
    ensures SceneReloaded in r.notices ==> r.world == Load(cfg)
    ensures SceneReloaded !in r.notices ==>
              && r.world.player == w.player
              && r.world.manager.gameWon == w.manager.gameWon
              && GameWonShown !in r.notices && PlayerDiedShown !in r.notices
    ensures SceneReloaded !in r.notices ==> Monotone(w, r)
    ensures var t := GameManager.Update(cfg.manager, w.manager, dt, |w.zombies|, enemyPick, pickupPick,
                                        Players.IsAlive(w.player), restartPressed);
            && (NoEnemySpawnPoints in r.notices <==> t.enemy == Some(GameManager.NoEnemyPoints))
            && (NoPickupSpawnPoints in r.notices <==> t.pickup == Some(GameManager.NoPickupPoints))
            && (SceneReloaded !in r.notices ==>
                  && r.world.manager == t.manager
                  && r.world.zombies == (if t.enemy.Some? && t.enemy.value.EnemySpawned?
                                         then w.zombies[w.nextZombie := Zombies.Awake(cfg.zombie)] else w.zombies)
                  && r.world.pickups == (if t.pickup.Some? && t.pickup.value.PickupSpawned?
                                         then w.pickups[w.nextPickup := Pickups.Pickup(Pickups.Ammo, cfg.ammoPickupCount, Some(t.pickup.value.point))]
                                         else w.pickups))
  {
    var t := GameManager.Update(cfg.manager, w.manager, dt, |w.zombies|, enemyPick, pickupPick,
                                Players.IsAlive(w.player), restartPressed);
    var errors := SpawnErrors(t);
    if t.restart then Outcome(Load(cfg), errors + [SceneReloaded])
    else Outcome(Populate(cfg, w.(manager := t.manager), t.enemy, t.pickup), errors)
  }

  /** The error logs of a manager frame: one per spawn attempt that found no
      spawn point of its type, and nothing else. */
  function SpawnErrors(t: GameManager.Tick): (ns: seq<Notice>)
    ensures NoEnemySpawnPoints in ns <==> t.enemy == Some(GameManager.NoEnemyPoints)
    ensures NoPickupSpawnPoints in ns <==> t.pickup == Some(GameManager.NoPickupPoints)
    ensures forall n :: n in ns ==> n == NoEnemySpawnPoints || n == NoPickupSpawnPoints
  {
    (if t.enemy == Some(GameManager.NoEnemyPoints) then [NoEnemySpawnPoints] else [])
    + (if t.pickup == Some(GameManager.NoPickupPoints) then [NoPickupSpawnPoints] else [])
  }

  /** The objects a manager frame creates: a zombie in its Awake state for a
      spawned enemy, an ammo pickup owned by its point for a spawned pickup. */
  function Populate(cfg: Config, w: World, enemy: Option<GameManager.EnemySpawn>,
                    pickup: Option<GameManager.PickupSpawn>): (r: World)
    ensures r.player == w.player && r.manager == w.manager
    ensures r.zombies == if enemy.Some? && enemy.value.EnemySpawned?
                         then w.zombies[w.nextZombie := Zombies.Awake(cfg.zombie)] else w.zombies
    ensures r.pickups == if pickup.Some? && pickup.value.PickupSpawned?
                         then w.pickups[w.nextPickup := Pickups.Pickup(Pickups.Ammo, cfg.ammoPickupCount, Some(pickup.value.point))]
                         else w.pickups
  {
    var w1 := if enemy.Some? && enemy.value.EnemySpawned? then AddZombie(cfg, w) else w;
    if pickup.Some? && pickup.value.PickupSpawned?
    then AddPickup(w1, Pickups.Pickup(Pickups.Ammo, cfg.ammoPickupCount, Some(pickup.value.point)))
    else w1
  }

  function AddZombie(cfg: Config, w: World): World
  {
    w.(zombies := w.zombies[w.nextZombie := Zombies.Awake(cfg.zombie)], nextZombie := w.nextZombie + 1)
  }

  function AddPickup(w: World, pk: Pickups.Pickup): World
  {
    w.(pickups := w.pickups[w.nextPickup := pk], nextPickup := w.nextPickup + 1)
  }

  function RayHitOf(w: World, aim: Aim): (h: Players.RayHit)
    requires aim.AimZombie? ==> aim.id in w.zombies
    ensures h == Players.LiveZombie <==> aim.AimZombie? && Zombies.IsAlive(w.zombies[aim.id])
  {
    match aim
    case AimMiss => Players.Miss
    case AimZombie(id) => if Zombies.IsAlive(w.zombies[id]) then Players.LiveZombie else Players.DeadZombie
    case AimBody => Players.Body
    case AimSurface => Players.Surface
  }

  /** The gun's damage reaching zombie `id`; its death edge reports to the
      manager and may leave a health pickup behind. */
  function ShootZombie(cfg: Config, w: World, id: nat, damage: int, draw: real): (r: Outcome)
    requires id in w.zombies
    ensures var h := Zombies.Hit(cfg.zombie, w.zombies[id], damage, draw);
            && r.world.zombies == w.zombies[id := h.zombie]
            && r.world.manager == (if h.died then GameManager.EnemyDied(w.manager).manager else w.manager)
            && r.world.pickups == (if h.dropsHealth then w.pickups[w.nextPickup := Pickups.LootDrop(cfg.healthPickupCount)]
                                   else w.pickups)
            && (GameWonShown in r.notices <==> h.died && GameManager.EnemyDied(w.manager).wonNow)
    ensures r.world.player == w.player
    ensures GameWonShown in r.notices <==> r.notices == [GameWonShown]
    ensures Count(GameWonShown, r.notices) <= 1
    ensures GameWonShown in r.notices ==> !w.manager.gameWon && r.world.manager.gameWon
    ensures w.manager.gameWon ==> r.world.manager.gameWon
    ensures PlayerDiedShown !in r.notices && SceneReloaded !in r.notices
  {
    var h := Zombies.Hit(cfg.zombie, w.zombies[id], damage, draw);
    var w1 := w.(zombies := w.zombies[id := h.zombie]);
    if !h.died then Outcome(w1, [])
    else
      var d := GameManager.EnemyDied(w1.manager);
      var w2 := w1.(manager := d.manager);
      var w3 := if h.dropsHealth then AddPickup(w2, Pickups.LootDrop(cfg.healthPickupCount)) else w2;
      Outcome(w3, if d.wonNow then [GameWonShown] else [])
  }

  /** The player's frame: input, firing, look. */
  function PlayerStep(cfg: Config, w: World, input: Players.InputSample, aim: Aim, draw: real): (r: Outcome)
    requires aim.AimZombie? ==> aim.id in w.zombies
    ensures var o := Players.UpdateInput(cfg.player, w.player, input, RayHitOf(w, aim));
            && r.world.player == o.player
            && (o.shot.Some? && o.shot.value.Damage? ==>
                  && o.shot.value.amount == cfg.player.gunDamage
                  && aim.AimZombie?
                  && r.world.zombies
                     == w.zombies[aim.id := Zombies.Hit(cfg.zombie, w.zombies[aim.id], cfg.player.gunDamage, draw).zombie])
            && (!(o.shot.Some? && o.shot.value.Damage?) ==> r.world == w.(player := o.player) && r.notices == [])
    ensures Players.IsAlive(r.world.player) <==> Players.IsAlive(w.player)
    ensures GameWonShown in r.notices <==> r.notices == [GameWonShown]
    ensures Count(GameWonShown, r.notices) <= 1
    ensures GameWonShown in r.notices ==> !w.manager.gameWon && r.world.manager.gameWon
    ensures w.manager.gameWon ==> r.world.manager.gameWon
    ensures PlayerDiedShown !in r.notices && SceneReloaded !in r.notices
    ensures Monotone(w, r)
  {
    var o := Players.UpdateInput(cfg.player, w.player, input, RayHitOf(w, aim));
    var w1 := w.(player := o.player);
    if o.shot.Some? && o.shot.value.Damage? && aim.AimZombie?
    then ShootZombie(cfg, w1, aim.id, o.shot.value.amount, draw)
    else Outcome(w1, [])
  }

  /** Zombie `id`'s frame: cooldown, chase, and possibly an attack on the
      player, which hits the player for the zombie's attack damage. Only that
      zombie and the player change. */
  function ZombieStep(cfg: Config, w: World, id: nat, dt: real, distance: real): (r: Outcome)
    requires id in w.zombies
    ensures var t := Zombies.Update(cfg.zombie, w.zombies[id], dt, distance);
            && r.world.zombies == w.zombies[id := t.zombie]
            && (t.attacks ==> r.world.player == Players.Hit(w.player, cfg.zombie.attackDamage).player)
            && (!t.attacks ==> r.world.player == w.player)
    ensures r.world == w.(zombies := r.world.zombies, player := r.world.player)
    ensures r.world.manager == w.manager
    ensures PlayerDiedShown in r.notices <==> r.notices == [PlayerDiedShown]
    ensures Count(PlayerDiedShown, r.notices) <= 1
    ensures PlayerDiedShown in r.notices ==> Players.IsAlive(w.player) && !Players.IsAlive(r.world.player)
    ensures !Players.IsAlive(w.player) ==> !Players.IsAlive(r.world.player)
    ensures GameWonShown !in r.notices && SceneReloaded !in r.notices
    ensures Monotone(w, r)
  {
    var t := Zombies.Update(cfg.zombie, w.zombies[id], dt, distance);
    var w1 := w.(zombies := w.zombies[id := t.zombie]);
    if t.attacks then
      var h := Players.Hit(w1.player, cfg.zombie.attackDamage);
      Outcome(w1.(player := h.player), if h.died then [PlayerDiedShown] else [])
    else Outcome(w1, [])
  }

  /** Something touched pickup `id`. A player contact frees the owning point
      whether or not the pickup was taken; the pickup object goes away only
      when it was taken. */
  function PickupStep(cfg: Config, w: World, id: nat, byPlayer: bool): (r: Outcome)
    requires GameManager.WellFormed(w.manager) && id in w.pickups && PickupOk(w.manager, w.pickups[id])
    ensures r.notices == []
    ensures !byPlayer ==> r.world == w
    ensures byPlayer && w.pickups[id].owner.Some? ==>
              var pt := w.pickups[id].owner.value;
              pt < |r.world.manager.occupied| && !r.world.manager.occupied[pt]
    ensures w.pickups[id].owner.None? ==> r.world.manager == w.manager
    ensures id in r.world.pickups <==> !Pickups.OnTriggerEnter(cfg.player, w.pickups[id], byPlayer, w.player).destroyed
    ensures |r.world.manager.occupied| == |w.manager.occupied|
    ensures r.world.player == Pickups.OnTriggerEnter(cfg.player, w.pickups[id], byPlayer, w.player).player
    ensures forall q :: 0 <= q < |w.manager.occupied| && (!byPlayer || w.pickups[id].owner != Some(q)) ==>
              r.world.manager.occupied[q] == w.manager.occupied[q]
    ensures r.world.manager == w.manager.(occupied := r.world.manager.occupied)
    ensures r.world == w.(player := r.world.player, manager := r.world.manager, pickups := r.world.pickups)
    ensures forall k :: k in w.pickups && k != id ==> k in r.world.pickups && r.world.pickups[k] == w.pickups[k]
    ensures r.world.pickups.Keys <= w.pickups.Keys
    ensures r.world.manager.gameWon == w.manager.gameWon
    ensures Players.IsAlive(r.world.player) <==> Players.IsAlive(w.player)
    ensures Monotone(w, r)
  {
    var c := Pickups.OnTriggerEnter(cfg.player, w.pickups[id], byPlayer, w.player);
    var m := if c.release.Some? then GameManager.Release(w.manager, c.release.value) else w.manager;
    Outcome(w.(player := c.player, manager := m, pickups := if c.destroyed then w.pickups - {id} else w.pickups), [])
  }

  /** A callback that moves only the player's body or camera: no notice, and
      health, and with it being alive, is untouched. */
  function BodyStep(w: World, p: Players.Player): (r: Outcome)
    requires p.health == w.player.health
    ensures r.notices == [] && r.world.manager == w.manager && r.world.player == p
    ensures Players.IsAlive(r.world.player) <==> Players.IsAlive(w.player)
    ensures Monotone(w, r)
  {
    Outcome(w.(player := p), [])
  }

  /** One event. Events the engine cannot deliver in this state change nothing.
      Every event short of a reload is monotone. */
  function Step(cfg: Config, w: World, e: Event): (r: Outcome)
    requires GameManager.WellFormed(w.manager) && PickupsOk(w)
    ensures SceneReloaded in r.notices <==>
              Admissible(w, e) && e.ManagerFrame? && e.restartPressed
              && (!Players.IsAlive(w.player) || w.manager.gameWon)
    ensures SceneReloaded in r.notices ==> r.world == Load(cfg)
    ensures SceneReloaded !in r.notices ==> Monotone(w, r)
  {
    if !Admissible(w, e) then Outcome(w, [])
    else
      match e
      case ManagerFrame(dt, ep, pp, restart) => ManagerStep(cfg, w, dt, ep, pp, restart)
      case PlayerFrame(input, aim, draw) => PlayerStep(cfg, w, input, aim, draw)
      case PlayerPhysics(dt) => BodyStep(w, Players.UpdateMovement(cfg.player, w.player, dt))
      case PlayerCamera(follow) => BodyStep(w, Players.UpdateCamera(w.player, follow))
      case PlayerLanded => BodyStep(w, Players.Land(w.player))
      case PhysicsVelocity(v) => BodyStep(w, w.player.(velocity := v))
      case ZombieFrame(id, dt, distance) => ZombieStep(cfg, w, id, dt, distance)
      case PickupTouched(id, byPlayer) => PickupStep(cfg, w, id, byPlayer)
      case ZombieRemoved(id) => Outcome(w.(zombies := w.zombies - {id}), [])
  }
}

=== FILE: scene_invariant.dfy ===
/** Properties of whole scenes: every event preserves the scene invariant
    (bounded player counters, the enemy budget, the live-enemy count, the
    enemy cap, spawn-point occupancy), and between two reloads the GameWon
    and PlayerDied notifications each appear at most once. */
module SceneInvariant {
  import opened Common
  import opened Scene
  import Players
  import Zombies
  import GameManager
  import Pickups

  lemma LoadEstablishesInv(cfg: Config)
    requires ConfigOk(cfg)
    ensures Inv(cfg, Load(cfg))
  {
    var w := Load(cfg);
    assert AliveZombies(w.zombies) == {};
  }

  // ---------------------------------------------------------------- helpers

  lemma AliveAdd(zs: map<nat, Zombies.Zombie>, id: nat, z: Zombies.Zombie)
    requires id !in zs && Zombies.IsAlive(z)
    ensures AliveZombies(zs[id := z]) == AliveZombies(zs) + {id}
  {
  }

  lemma AliveKill(zs: map<nat, Zombies.Zombie>, id: nat, z: Zombies.Zombie)
    requires id in zs && Zombies.IsAlive(zs[id]) && !Zombies.IsAlive(z)
    ensures AliveZombies(zs[id := z]) == AliveZombies(zs) - {id}
  {
  }

  lemma AliveKeep(zs: map<nat, Zombies.Zombie>, id: nat, z: Zombies.Zombie)
    requires id in zs && (Zombies.IsAlive(zs[id]) <==> Zombies.IsAlive(z))
    ensures AliveZombies(zs[id := z]) == AliveZombies(zs)
  {
  }

  lemma AliveRemoveDead(zs: map<nat, Zombies.Zombie>, id: nat)
    requires id in zs && !Zombies.IsAlive(zs[id])
    ensures AliveZombies(zs - {id}) == AliveZombies(zs)
  {
  }

  lemma AliveWithinObjects(zs: map<nat, Zombies.Zombie>)
    ensures |AliveZombies(zs)| <= |zs|
  {
    assert AliveZombies(zs) <= zs.Keys;
    SubsetCardinality(AliveZombies(zs), zs.Keys);
  }

  lemma {:induction false} SubsetCardinality(a: set<nat>, b: set<nat>)
    requires a <= b
    ensures |a| <= |b|
    decreases |b|
  {
    if a != {} {
      var x :| x in a;
      SubsetCardinality(a - {x}, b - {x});
    }
  }

  lemma HostedGrow(ps: map<nat, Pickups.Pickup>, k: nat, pk: Pickups.Pickup, pt: nat)
    requires Hosted(ps, pt) && k !in ps
    ensures Hosted(ps[k := pk], pt)
  {
    var id :| id in ps && ps[id].owner == Some(pt);
    assert id in ps[k := pk] && ps[k := pk][id].owner == Some(pt);
  }

  lemma HostedShrink(ps: map<nat, Pickups.Pickup>, gone: nat, pt: nat)
    requires Hosted(ps, pt) && gone in ps && ps[gone].owner != Some(pt)
    ensures Hosted(ps - {gone}, pt)
  {
    var id :| id in ps && ps[id].owner == Some(pt);
    assert id in ps - {gone} && (ps - {gone})[id].owner == Some(pt);
  }

  /** A new pickup object, fresh and well-formed, keeps the invariant. */
  lemma AddPickupPreservesInv(cfg: Config, w: World, pk: Pickups.Pickup)
    requires Inv(cfg, w) && PickupOk(w.manager, pk)
    ensures Inv(cfg, AddPickup(w, pk))
  {
    var k := w.nextPickup;
    assert k !in w.pickups;
    forall q | 0 <= q < |w.manager.occupied| && w.manager.occupied[q]
      ensures Hosted(AddPickup(w, pk).pickups, q)
    {
      HostedGrow(w.pickups, k, pk, q);
    }
  }

  /** A registered pickup point always has an occupancy flag. */
  lemma PointInRange(m: GameManager.Manager, pt: nat)
    requires GameManager.WellFormed(m) && pt in m.pickupSpawns
    ensures pt < |m.occupied|
  {
    var k :| 0 <= k < |m.pickupSpawns| && m.pickupSpawns[k] == pt;
  }

  // ---------------------------------------------------------------- one event

  lemma ManagerStepPreservesInv(cfg: Config, w: World, dt: real, ep: nat, pp: nat, restart: bool)
    requires Inv(cfg, w)
    requires GameManager.PickInRange(ep, w.manager.enemySpawns)
    requires GameManager.PickInRange(pp, w.manager.pickupSpawns)
    ensures Inv(cfg, ManagerStep(cfg, w, dt, ep, pp, restart).world)
  {
    var t := GameManager.Update(cfg.manager, w.manager, dt, |w.zombies|, ep, pp,
                                Players.IsAlive(w.player), restart);
    if t.restart {
      LoadEstablishesInv(cfg);
    } else {
      SpawnsKeepBudget(cfg, w, t);
      SpawnsKeepOccupancy(cfg, w, t);
    }
  }

  /** The enemy side of a manager frame: a spawned zombie is alive, fresh,
      paid for from the budget and within the cap. */
  lemma SpawnsKeepBudget(cfg: Config, w: World, t: GameManager.Tick)
    requires Inv(cfg, w)
    requires t.enemy.Some? ==> w.manager.enemiesRemaining > 0
    requires t.enemy.Some? && t.enemy.value.EnemySpawned? ==> |w.zombies| < cfg.manager.maxEnemyCount
    requires t.manager.enemiesRemaining
          == if t.enemy.Some? && t.enemy.value.EnemySpawned? then w.manager.enemiesRemaining - 1 else w.manager.enemiesRemaining
    requires t.manager.enemiesRemaining + t.manager.currentEnemyCount
          == w.manager.enemiesRemaining + w.manager.currentEnemyCount
    requires t.manager.gameWon == w.manager.gameWon
    ensures var w3 := Populate(cfg, w.(manager := t.manager), t.enemy, t.pickup);
            Budget(cfg, w3) && ZombiesOk(cfg, w3)
  {
    var w1 := w.(manager := t.manager);
    if t.enemy.Some? && t.enemy.value.EnemySpawned? {
      assert w.nextZombie !in w.zombies;
      AliveAdd(w.zombies, w.nextZombie, Zombies.Awake(cfg.zombie));
      var w2 := AddZombie(cfg, w1);
      assert |w2.zombies| == |w.zombies| + 1;
      assert Budget(cfg, w2);
    }
  }

  /** The pickup side of a manager frame: a point is marked occupied exactly
      when a new pickup it owns appears. */
  lemma SpawnsKeepOccupancy(cfg: Config, w: World, t: GameManager.Tick)
    requires Inv(cfg, w)
    requires GameManager.WellFormed(t.manager)
    requires t.manager.pickupSpawns == w.manager.pickupSpawns
    requires t.pickup.None? || !t.pickup.value.PickupSpawned? ==> t.manager.occupied == w.manager.occupied
    requires t.pickup.Some? && t.pickup.value.PickupSpawned? ==>
               && t.pickup.value.point in w.manager.pickupSpawns
               && t.manager.occupied == w.manager.occupied[t.pickup.value.point := true]
    ensures var w3 := Populate(cfg, w.(manager := t.manager), t.enemy, t.pickup);
            PickupsOk(w3) && OccupancyOk(w3)
  {
    var w1 := w.(manager := t.manager);
    var w2 := if t.enemy.Some? && t.enemy.value.EnemySpawned? then AddZombie(cfg, w1) else w1;
    assert w2.pickups == w.pickups && w2.nextPickup == w.nextPickup && w2.manager == t.manager;
    if t.pickup.Some? && t.pickup.value.PickupSpawned? {
      var pt := t.pickup.value.point;
      var pk := Pickups.Pickup(Pickups.Ammo, cfg.ammoPickupCount, Some(pt));
      var w3 := AddPickup(w2, pk);
      var k := w2.nextPickup;
      assert k !in w2.pickups;
      forall q | 0 <= q < |w3.manager.occupied| && w3.manager.occupied[q]
        ensures q in w3.manager.pickupSpawns && Hosted(w3.pickups, q)
      {
        if q == pt {
          assert k in w3.pickups && w3.pickups[k].owner == Some(q);
        } else {
          assert w.manager.occupied[q];
          HostedGrow(w2.pickups, k, pk, q);
        }
      }
    }
  }

  lemma ShootZombiePreservesInv(cfg: Config, w: World, id: nat, damage: int, draw: real)
    requires Inv(cfg, w) && id in w.zombies && 0 <= damage
    ensures Inv(cfg, ShootZombie(cfg, w, id, damage, draw).world)
  {
    var h := Zombies.Hit(cfg.zombie, w.zombies[id], damage, draw);
    var w1 := w.(zombies := w.zombies[id := h.zombie]);
    if !h.died {
      AliveKeep(w.zombies, id, h.zombie);
      assert Inv(cfg, w1);
      return;
    }
    AliveKill(w.zombies, id, h.zombie);
    assert id in AliveZombies(w.zombies);
    assert |AliveZombies(w1.zombies)| == |AliveZombies(w.zombies)| - 1;
    var d := GameManager.EnemyDied(w1.manager);
    var w2 := w1.(manager := d.manager);
    assert !w.manager.gameWon;
    assert Budget(cfg, w2);
    assert Inv(cfg, w2);
    if h.dropsHealth {
      AddPickupPreservesInv(cfg, w2, Pickups.LootDrop(cfg.healthPickupCount));
    }
  }

  lemma PlayerStepPreservesInv(cfg: Config, w: World, input: Players.InputSample, aim: Aim, draw: real)
    requires Inv(cfg, w) && (aim.AimZombie? ==> aim.id in w.zombies)
    ensures Inv(cfg, PlayerStep(cfg, w, input, aim, draw).world)
  {
    var o := Players.UpdateInput(cfg.player, w.player, input, RayHitOf(w, aim));
    var w1 := w.(player := o.player);
    assert Inv(cfg, w1);
    if o.shot.Some? && o.shot.value.Damage? && aim.AimZombie? {
      ShootZombiePreservesInv(cfg, w1, aim.id, o.shot.value.amount, draw);
    }
  }

  lemma ZombieStepPreservesInv(cfg: Config, w: World, id: nat, dt: real, distance: real)
    requires Inv(cfg, w) && id in w.zombies
    ensures Inv(cfg, ZombieStep(cfg, w, id, dt, distance).world)
  {
    var t := Zombies.Update(cfg.zombie, w.zombies[id], dt, distance);
    AliveKeep(w.zombies, id, t.zombie);
    var w1 := w.(zombies := w.zombies[id := t.zombie]);
    assert |w1.zombies| == |w.zombies|;
    assert Inv(cfg, w1);
  }

  /** A player contact frees only the touched pickup's own point, and a
      consumed pickup only ever vacates that point, so every point still
      occupied hosts a pickup. */
  lemma PickupStepKeepsOccupancy(cfg: Config, w: World, id: nat, byPlayer: bool)
    requires Inv(cfg, w) && id in w.pickups
    ensures OccupancyOk(PickupStep(cfg, w, id, byPlayer).world)
    ensures var occ := PickupStep(cfg, w, id, byPlayer).world.manager.occupied;
            forall q :: 0 <= q < |occ| ==>
              (occ[q] <==> w.manager.occupied[q] && !(byPlayer && w.pickups[id].owner == Some(q)))
  {
    var pk := w.pickups[id];
    var c := Pickups.OnTriggerEnter(cfg.player, pk, byPlayer, w.player);
    if pk.owner.Some? {
      PointInRange(w.manager, pk.owner.value);
    }
    var m := if c.release.Some? then GameManager.Release(w.manager, c.release.value) else w.manager;
    var ps := if c.destroyed then w.pickups - {id} else w.pickups;
    assert PickupStep(cfg, w, id, byPlayer).world == w.(player := c.player, manager := m, pickups := ps);
    forall q | 0 <= q < |m.occupied| && m.occupied[q]
      ensures q in m.pickupSpawns && Hosted(ps, q)
    {
      assert w.manager.occupied[q];
      if c.destroyed {
        assert c.release == pk.owner;
        HostedShrink(w.pickups, id, q);
      }
    }
  }

  lemma PickupStepPreservesInv(cfg: Config, w: World, id: nat, byPlayer: bool)
    requires Inv(cfg, w) && id in w.pickups
    ensures Inv(cfg, PickupStep(cfg, w, id, byPlayer).world)
  {
    PickupStepKeepsOccupancy(cfg, w, id, byPlayer);
    if w.pickups[id].owner.Some? {
      PointInRange(w.manager, w.pickups[id].owner.value);
    }
  }

  lemma StepPreservesInv(cfg: Config, w: World, e: Event)
    requires Inv(cfg, w)
    ensures Inv(cfg, Step(cfg, w, e).world)
  {
    if !Admissible(w, e) {
      return;
    }
    match e
    case ManagerFrame(dt, ep, pp, restart) => ManagerStepPreservesInv(cfg, w, dt, ep, pp, restart);
    case PlayerFrame(input, aim, draw) => PlayerStepPreservesInv(cfg, w, input, aim, draw);
    case PlayerPhysics(dt) => BodyStepPreservesInv(cfg, w, Players.UpdateMovement(cfg.player, w.player, dt));
    case PlayerCamera(follow) => BodyStepPreservesInv(cfg, w, Players.UpdateCamera(w.player, follow));
    case PlayerLanded => BodyStepPreservesInv(cfg, w, Players.Land(w.player));
    case PhysicsVelocity(v) => BodyStepPreservesInv(cfg, w, w.player.(velocity := v));
    case ZombieFrame(id, dt, distance) => ZombieStepPreservesInv(cfg, w, id, dt, distance);
    case PickupTouched(id, byPlayer) => PickupStepPreservesInv(cfg, w, id, byPlayer);
    case ZombieRemoved(id) => RemovalPreservesInv(cfg, w, id);
  }

  /** A body or camera callback keeps the invariant when it keeps the player
      within bounds. */
  lemma BodyStepPreservesInv(cfg: Config, w: World, p: Players.Player)
    requires Inv(cfg, w) && p.health == w.player.health && Players.Bounded(cfg.player, p)
    ensures Inv(cfg, BodyStep(w, p).world)
  {
  }

  /** Removing a zombie whose removal was scheduled removes a dead one, so the
      live count still matches and the object count only drops. */
  lemma RemovalPreservesInv(cfg: Config, w: World, id: nat)
    requires Inv(cfg, w) && id in w.zombies && w.zombies[id].removalScheduled
    ensures Inv(cfg, w.(zombies := w.zombies - {id}))
  {
    AliveRemoveDead(w.zombies, id);
    assert |(w.zombies - {id})| == |w.zombies| - 1;
  }

  // ---------------------------------------------------------------- consequences

  /** The cap counts zombie objects, which include dead zombies still
      lingering before removal, so it is never below the live-enemy count and
      exceeds it whenever a dead zombie lingers. */
  lemma CapCountsLingeringZombies(cfg: Config, w: World)
    requires Inv(cfg, w)
    ensures w.manager.currentEnemyCount <= |w.zombies|
    ensures (exists id :: id in w.zombies && !Zombies.IsAlive(w.zombies[id])) ==>
              w.manager.currentEnemyCount < |w.zombies|
    ensures (forall id :: id in w.zombies ==> Zombies.IsAlive(w.zombies[id])) ==>
              w.manager.currentEnemyCount == |w.zombies|
  {
    AliveWithinObjects(w.zombies);
    if forall id :: id in w.zombies ==> Zombies.IsAlive(w.zombies[id]) {
      assert AliveZombies(w.zombies) == w.zombies.Keys;
    }
    if exists id :: id in w.zombies && !Zombies.IsAlive(w.zombies[id]) {
      var id :| id in w.zombies && !Zombies.IsAlive(w.zombies[id]);
      var rest := w.zombies - {id};
      AliveRemoveDead(w.zombies, id);
      AliveWithinObjects(rest);
      assert |rest| == |w.zombies| - 1;
    }
  }

  // ---------------------------------------------------------------- traces

  /** The scene after a sequence of events, with every notification in
      order. Every scene along the way satisfies the invariant, and until the
      scene is reloaded the win flag stays set, a dead player stays dead,
      GameWon is shown at most once (and not at all once the match is already
      won), and PlayerDied at most once (and not at all for a player already
      dead). */
  function Run(cfg: Config, w: World, es: seq<Event>): (r: Outcome)
    requires Inv(cfg, w)
    ensures Inv(cfg, r.world)
    ensures SceneReloaded !in r.notices ==>
              && Count(GameWonShown, r.notices) + (if w.manager.gameWon then 1 else 0) <= 1
              && Count(PlayerDiedShown, r.notices) + (if Players.IsAlive(w.player) then 0 else 1) <= 1
              && (w.manager.gameWon ==> r.world.manager.gameWon)
              && (!Players.IsAlive(w.player) ==> !Players.IsAlive(r.world.player))
    decreases |es|
  {
    if es == [] then Outcome(w, [])
    else
      var o := Step(cfg, w, es[0]);
      StepPreservesInv(cfg, w, es[0]);
      var rest := Run(cfg, o.world, es[1..]);
      CountAppend(GameWonShown, o.notices, rest.notices);
      CountAppend(PlayerDiedShown, o.notices, rest.notices);
      Outcome(rest.world, o.notices + rest.notices)
  }

  /** The win is only ever checked when an enemy dies, so a match whose
      enemy total is zero is never won: no zombie can exist to die. */
  lemma NoEnemiesNoWin(cfg: Config, w: World, e: Event)
    requires Inv(cfg, w) && cfg.manager.totalEnemyCount == 0 && !w.manager.gameWon
    ensures !Step(cfg, w, e).world.manager.gameWon
  {
  }

  lemma {:induction false} NoEnemiesNeverWon(cfg: Config, w: World, es: seq<Event>)
    requires Inv(cfg, w) && cfg.manager.totalEnemyCount == 0 && !w.manager.gameWon
    ensures !Run(cfg, w, es).world.manager.gameWon
    decreases |es|
  {
    if es != [] {
      NoEnemiesNoWin(cfg, w, es[0]);
      StepPreservesInv(cfg, w, es[0]);
      NoEnemiesNeverWon(cfg, Step(cfg, w, es[0]).world, es[1..]);
    }
  }
}

=== FILE: zombie.dfy ===
/** A zombie's bookkeeping: health set at Awake, the one-way death edge with
    its loot roll and removal schedule, and the distance- and cooldown-gated
    attack (Assets/Zombie.cs). Navigation, the physics response and the
    random draw are engine services; their outcomes are parameters. */
module Zombies {
  import opened Common

  /** Inspector constants of the zombie that the bookkeeping reads. */
  datatype Config = Config(
    maxHealth: int, attackDamage: int, attackDistance: real, attackInterval: real,
    healthSpawnOdds: real)

  /** The values the source declares as field initialisers. */
  const Defaults: Config := Config(100, 24, 2.0, 1.0, 0.1)

  /** `agentEnabled` is the navigation agent's switch, `kinematic` the
      rigidbody's (true while the agent drives the body), `removalScheduled`
      the delayed destruction requested at death. */
  datatype Zombie = Zombie(
    health: int, attackTimer: real, agentEnabled: bool, kinematic: bool, removalScheduled: bool)

  predicate IsAlive(z: Zombie)
  {
    z.health > 0
  }

  /** Health in [0, max]; while alive the agent drives a kinematic body and no
      removal is pending; once dead the agent is off, the body is free and
      removal is scheduled. */
  predicate Consistent(cfg: Config, z: Zombie)
  {
    && 0 <= z.health <= cfg.maxHealth
    && (IsAlive(z) <==> z.agentEnabled)
    && (IsAlive(z) <==> z.kinematic)
    && (IsAlive(z) <==> !z.removalScheduled)
  }

  /** Awake: full health, the agent in control, no attack cooldown pending. */
  function Awake(cfg: Config): (z: Zombie)
    ensures z.health == cfg.maxHealth && z.attackTimer == 0.0
    ensures IsAlive(z) <==> cfg.maxHealth > 0
    ensures cfg.maxHealth > 0 ==> Consistent(cfg, z)
  {
    Zombie(cfg.maxHealth, 0.0, true, true, false)
  }

  // ---------------------------------------------------------------- damage

  /** `died` stands for the death impulse and the EnemyDied report to the
      match; `dropsHealth` for the health pickup left behind. */
  datatype HitOutcome = HitOutcome(zombie: Zombie, died: bool, dropsHealth: bool)

  /** Hit: a dead zombie ignores damage; otherwise health drops, clamped at
      zero. The hit that reaches zero disables the agent, frees the body,
      rolls the loot (`draw` is the uniform draw in [0, 1], the drop happens
      iff it is at most the configured odds) and schedules removal. */
  function Hit(cfg: Config, z: Zombie, damage: int, draw: real): (r: HitOutcome)
    ensures !IsAlive(z) ==> r == HitOutcome(z, false, false)
    ensures IsAlive(z) ==> r.zombie.health == Max(z.health - damage, 0)
    ensures r.died <==> IsAlive(z) && damage >= z.health
    ensures r.dropsHealth <==> r.died && draw <= cfg.healthSpawnOdds
    ensures r.died ==> r.zombie == z.(health := 0, agentEnabled := false, kinematic := false, removalScheduled := true)
    ensures !r.died ==> r.zombie == z.(health := r.zombie.health)
    ensures Consistent(cfg, z) && 0 <= damage ==> Consistent(cfg, r.zombie)
  {
    if !IsAlive(z) then HitOutcome(z, false, false)
    else
      var health := Max(z.health - damage, 0);
      if health <= 0 then
        HitOutcome(z.(health := health, agentEnabled := false, kinematic := false, removalScheduled := true),
                   true, draw <= cfg.healthSpawnOdds)
      else
        HitOutcome(z.(health := health), false, false)
  }

  /** One hit as the player's gun delivers it: damage and the loot draw. */
  datatype Strike = Strike(damage: int, draw: real)

  /** Death edges and loot drops along a sequence of hits. */
  datatype Tally = Tally(deaths: nat, drops: nat)

  function Strikes(cfg: Config, z: Zombie, hits: seq<Strike>): Tally
    decreases |hits|
  {
    if hits == [] then Tally(0, 0)
    else
      var o := Hit(cfg, z, hits[0].damage, hits[0].draw);
      var rest := Strikes(cfg, o.zombie, hits[1..]);
      Tally((if o.died then 1 else 0) + rest.deaths, (if o.dropsHealth then 1 else 0) + rest.drops)
  }

  lemma {:induction false} DeadZombieIgnoresStrikes(cfg: Config, z: Zombie, hits: seq<Strike>)
    requires !IsAlive(z)
    ensures Strikes(cfg, z, hits) == Tally(0, 0)
    decreases |hits|
  {
    if hits != [] {
      DeadZombieIgnoresStrikes(cfg, z, hits[1..]);
    }
  }

  /** The death edge, and with it the EnemyDied report, the loot roll and the
      removal request, happens at most once per zombie. */
  lemma {:induction false} DeathEdgeAtMostOnce(cfg: Config, z: Zombie, hits: seq<Strike>)
    ensures Strikes(cfg, z, hits).deaths <= 1
    ensures Strikes(cfg, z, hits).drops <= Strikes(cfg, z, hits).deaths
    ensures !IsAlive(z) ==> Strikes(cfg, z, hits).deaths == 0
    decreases |hits|
  {
    if hits != [] {
      var o := Hit(cfg, z, hits[0].damage, hits[0].draw);
      if o.died {
        DeadZombieIgnoresStrikes(cfg, o.zombie, hits[1..]);
      } else {
        DeathEdgeAtMostOnce(cfg, o.zombie, hits[1..]);
      }
    }
  }

  // ---------------------------------------------------------------- per frame

  /** `chases` stands for the destination update sent to the agent,
      `attacks` for a hit on the player worth `attackDamage`. */
  datatype TickOutcome = TickOutcome(zombie: Zombie, chases: bool, attacks: bool)

  /** Update: the cooldown runs down by the frame time in every state; the
      agent is steered toward the player while it is enabled; an attack needs
      a live zombie strictly inside the attack distance and a cooldown
      strictly below zero, and restarts the cooldown. */
  function Update(cfg: Config, z: Zombie, dt: real, distance: real): (r: TickOutcome)
    ensures r.zombie == z.(attackTimer := r.zombie.attackTimer)
    ensures r.chases == z.agentEnabled
    ensures r.attacks <==> IsAlive(z) && distance < cfg.attackDistance && z.attackTimer - dt < 0.0
    ensures r.zombie.attackTimer == if r.attacks then cfg.attackInterval else z.attackTimer - dt
    ensures Consistent(cfg, z) ==> Consistent(cfg, r.zombie)
    ensures Consistent(cfg, z) && !IsAlive(z) ==> !r.chases && !r.attacks
  {
    var timer := z.attackTimer - dt;
    var attacks := IsAlive(z) && distance < cfg.attackDistance && timer < 0.0;
    TickOutcome(z.(attackTimer := if attacks then cfg.attackInterval else timer), z.agentEnabled, attacks)
  }
}
